=== FILE: README.md ===
# KarmaChain security and Core-authorization layer, modelled in Dafny

This project models the security and authorization utilities of KarmaChain v2:

- `SecurityManager` keeps three pieces of state: a nonce store, a replay cache and a hash-chained audit log.
  It secures karma signals (nonce, timestamp, ttl, version, HMAC signature) and validates them.
- `BucketCommunicator` stages secured signals under `bucket_<n>` ids.
  A send validates the signal before storing it, and a receive validates it again.
- `AuthorizationLogger` is the append-only log of Core authorization events, with a per-type summary.
- The Core authorization gate turns Core's ACK, DENY or silence into an allowed, denied or timeout result.
  It also applies an action only when the result authorizes it.
- The canonical `KarmaSignal` record, the constraint table, and the global constraint-only flag.
- The source check that limits the restricted API endpoints to calls from the Bucket or the Core.

Modules, one file each:

- `Values`: dictionaries as maps of JSON-like values, plus Python truthiness, `dict.get` and tail slices.
- `Crypto`: the hashing, HMAC, JSON and clock-formatting primitives, as uninterpreted functions.
- `SecurityChecks`: what each security check computes, and the validation verdict.
- `AuditChain`: the audit entry, the chain link invariant, and what `verify_audit_chain` checks.
- `SecurityHardening`: the `SecurityManager` class.
- `Bucket`: the `BucketCommunicator` class.
- `AuthLogging`: the `AuthorizationLogger` class.
- `CoreAuthorization`: the gate.
- `KarmaSignalContract`: the signal record, the constraint table and the flag.
- `Authorization`: the source check.

The model keeps three behaviours of the code as written and proves each of them:

- The audit chain stops verifying once one event has been logged.
  Each entry's `previous_hash` is the last `entry_hash`, which was computed without the `entry_hash` key.
  `verify_audit_chain` instead digests the whole previous entry, and the genesis entry carries a sentinel rather than a digest.
  While the genesis entry is still in the log, this holds whatever the hash function (`AuditChain.GenesisChainNeverVerifies`).
  After 1000 further events the trim drops the genesis entry.
  From then on, the chain verifies only if the digest gives an entry and that entry without `entry_hash` the same value.
  When the digest tells those two apart, a chain of two or more entries never verifies.
  See `AuditChain.LinkedChainVerifiesOnlyWhenTrivial` and `SecurityHardening.ManagerChainIntegrity`.
- A receive inside the replay window right after a successful send is refused as a replay.
  The send's own validation already recorded the signal's fingerprint, so the receive's verdict carries "Replay attack detected".
  See `Bucket.SendThenReceive`.
- A nonce is never consumed: a valid nonce stays valid until it expires.
  See `SecurityChecks.NonceNotConsumed` and `SecurityChecks.FreshNonceLifetime`.

Clock readings, random bytes and uuids are parameters of the operations that use them.

## Model

Specification functions whose meaning is the subject of lemmas are mapped through the rows of those lemmas rather than rows of their own:
`SecurityChecks.IsValidTtl` through `TtlWindow` and `ZuluIsUtc`;
`SecurityChecks.SignMessage` and `SecurityChecks.VerifySignature` through `SignatureTamperEvident`, `SecuredSignatureVerifies` and `PresignedDataFailsVerification`;
`CoreAuthorization.Gate` through `GateOutcomes`, `ApplyAfterGate`, `GateLogShape` and `AuthorizeIrreversibleAction`.

| member | source | states |
|---|---|---|
| Crypto.Separating | utils/security_hardening.py:157-174 | for any value, primitives exist whose digest and HMAC tell it from every other value, so the pair-wise separation the tamper lemmas assume can be met |
| Values.GetOr | utils/authorization_logging.py:174-177 | `dict.get(key, default)`: the stored value when the key is present, the default otherwise |
| Values.LastEntries | utils/security_hardening.py:284-286 | `s[-limit:] if len(s) > limit else s`: a suffix of `s`; `limit` entries when 1 <= limit < len, all of `s` otherwise; a zero limit yields all of `s` |
| SecurityChecks.TruncSeconds | utils/security_hardening.py:57 | `int(t)` truncates toward zero: within one second of `t`, on the side of zero |
| SecurityChecks.NonceFor | utils/security_hardening.py:57-62 | the nonce is 32 characters long |
| SecurityChecks.FreshNonceLifetime | utils/security_hardening.py:54-87 | a just-registered nonce validates and stays in the store; it keeps validating while at most 300 s have passed; after that it is refused and deleted |
| SecurityChecks.NonceNotConsumed | utils/security_hardening.py:72-87 | a successful validation leaves the store as it was, so the same nonce validates again |
| SecurityChecks.TtlWindow | utils/security_hardening.py:89-107 | an unparseable timestamp fails; otherwise the TTL check passes iff sent <= now <= sent + ttl (closed at both ends) |
| SecurityChecks.ZuluIsUtc | utils/security_hardening.py:92-95 | a timestamp ending in "Z" is judged exactly like its "+00:00" spelling |
| SecurityChecks.SignatureTamperEvident | utils/security_hardening.py:157-174 | a signature verifies over the mapping it was made from; it fails over any other mapping that the HMAC tells apart from that one |
| SecurityChecks.FingerprintIgnoresVolatile | utils/security_hardening.py:111-122 | messages that differ only in timestamp, nonce or signature share a fingerprint; when the digest tells their non-volatile parts apart, sharing one means exactly that |
| SecurityChecks.Purged | utils/security_hardening.py:127-133 | the purge keeps exactly the cache entries at most 3600 s old, unchanged |
| SecurityChecks.RepeatIsReplay | utils/security_hardening.py:109-155 | after a miss records a message, any message equal outside the volatile fields is a replay for the whole replay window |
| SecurityChecks.SecureFields | utils/security_hardening.py:176-196 | the secured signal carries the new nonce, keeps a caller's timestamp (else the clock's), the ttl, version "2.0" and all required fields, and leaves every other input field unchanged |
| SecurityChecks.SecuredSignatureVerifies | utils/security_hardening.py:194-196 | a secured signal passes the signature check when the input had no "signature" field |
| SecurityChecks.PresignedDataFailsVerification | utils/security_hardening.py:194-196 | an input that already had a "signature" field is signed over it; the check recomputes the HMAC over a different mapping, so it passes only if the HMAC confuses the two, and reports "Invalid signature" whenever the HMAC tells them apart |
| SecurityChecks.MissingFieldErrors | utils/security_hardening.py:212-215 | no error iff every listed field is present; every error names a listed field that is absent; there are exactly as many errors as positions of the list holding an absent field |
| SecurityChecks.Validate | utils/security_hardening.py:206-250 | the verdict is valid exactly when its error list is empty |
| SecurityChecks.MissingFieldsShortCircuit | utils/security_hardening.py:212-218 | a missing required field makes the verdict invalid, with only missing-field errors, naming that field |
| SecurityChecks.MissingFieldListed | utils/security_hardening.py:212-215 | each absent field gets its own "Missing required field" error |
| SecurityChecks.ChecksAreIndependent | utils/security_hardening.py:220-241 | with all fields present, the nonce, TTL and replay errors each appear iff their own check fails; valid iff all four checks pass |
| SecurityChecks.ReplayRefused | utils/security_hardening.py:228-230 | a signal found in the replay cache is never valid |
| SecurityChecks.AcceptedIsRecordedIfValid | utils/security_hardening.py:152-154 | a valid signal leaves its fingerprint in the cache, stamped with the validation's clock reading |
| AuditChain.NewEntry | utils/security_hardening.py:254-269 | the new entry is sealed with the digest of its own hash-less form; it links to the last hash, or has no previous hash when that is empty; it keeps the given event id, type and details |
| AuditChain.EntryJson | utils/security_hardening.py:254-266 | the serialised entry has an "entry_hash" key iff the entry carries one |
| AuditChain.Retain | utils/security_hardening.py:278-280 | the trim keeps the newest min(len, 1000) entries, in order |
| AuditChain.GenesisLinked | utils/security_hardening.py:42-52 | the initial one-entry chain satisfies the link invariant |
| AuditChain.SuffixKeepsLinks | utils/security_hardening.py:278-280 | dropping the oldest entries keeps the chain sealed and linked |
| AuditChain.AppendKeepsLinks | utils/security_hardening.py:262-276 | appending a sealed entry that links to the last hash keeps the chain sealed and linked |
| AuditChain.AppendKeepsChainLinked | utils/security_hardening.py:252-282 | an append plus trim keeps the link invariant, with the new entry's hash as the last hash |
| AuditChain.GenesisChainNeverVerifies | utils/security_hardening.py:48-52 | a chain of two or more entries that still starts at genesis fails verification, whatever the hash function |
| AuditChain.LinkedChainVerifiesOnlyWhenTrivial | utils/security_hardening.py:288-314 | the first entry of a chain built by the appends differs from itself without `entry_hash`; a chain of two or more entries verifies only if the digest confuses the two; when the digest tells sealed entries from their unsealed form, the chain verifies iff it has one entry |
| AuditChain.SealAwarePrimitives | utils/security_hardening.py:254-266 | primitives exist whose digest tells every sealed entry from the same entry without `entry_hash`, so the assumption above can be met |
| AuditChain.LoggedThree | utils/security_hardening.py:252-282 | logging three events in a row is three single appends in that order |
| SecurityHardening.SecurityManager.constructor | utils/security_hardening.py:27-52 | empty stores, the log is the genesis entry alone, the last hash is the genesis sentinel, and the chain invariant holds |
| SecurityHardening.SecurityManager.GenerateSecureNonce | utils/security_hardening.py:54-70 | the derived 32-character nonce is stored under its issue second and validates at once |
| SecurityHardening.SecurityManager.ValidateNonce | utils/security_hardening.py:72-87 | an empty or unknown nonce is refused with no change; an expired one is refused and deleted; any other is accepted and kept |
| SecurityHardening.SecurityManager.DetectReplayAttack | utils/security_hardening.py:109-155 | the purge loop leaves exactly the live entries; a hit reports a replay and records nothing; a miss records the fingerprint with the clock reading and signal id |
| SecurityHardening.SecurityManager.LogSecurityEvent | utils/security_hardening.py:252-282 | the new entry links to the previous last hash and its hash becomes the last hash; the log is trimmed to 1000 entries; the chain invariant is kept |
| SecurityHardening.SecurityManager.CreateSecureKarmaSignal | utils/security_hardening.py:176-204 | returns the secured signal, registers its nonce, and appends a 'signal_created' entry; the chain invariant is kept |
| SecurityHardening.SecurityManager.MissingRequiredFields | utils/security_hardening.py:210-215 | the loop reports the absent required fields in order; none iff all are present |
| SecurityHardening.SecurityManager.RunChecks | utils/security_hardening.py:220-241 | each check adds its own error; the nonce store and replay cache change as validate_nonce and detect_replay_attack change them |
| SecurityHardening.SecurityManager.ValidateSecureKarmaSignal | utils/security_hardening.py:206-250 | the verdict is the validation function of the old state; a missing field returns at once and changes nothing; otherwise the stores update and 'signal_validated' is logged |
| SecurityHardening.SecurityManager.GetAuditTrail | utils/security_hardening.py:284-286 | a suffix of the log; `limit` entries when 1 <= limit < length, the whole log when limit is 0 |
| SecurityHardening.SecurityManager.VerifyAuditChain | utils/security_hardening.py:288-314 | the loop's answer is the chain predicate; a log of at most one entry verifies |
| SecurityHardening.SecurityManager.GetSecuritySummary | utils/security_hardening.py:316-324 | the counts are the sizes of the three stores, integrity is the chain predicate, and the last hash is reported |
| SecurityHardening.ManagerChainIntegrity | utils/security_hardening.py:252-314 | once a manager has logged an event, its chain verifies only if the digest confuses the first entry with its unsealed form; when the digest tells them apart, the chain verifies iff it holds one entry |
| Bucket.BucketId | utils/security_hardening.py:357-358 | every id starts with "bucket_" |
| Bucket.BucketCommunicator.constructor | utils/security_hardening.py:331-334 | an empty store and a zero counter |
| Bucket.BucketCommunicator.SendToBucket | utils/security_hardening.py:336-373 | rejected iff the secured signal fails validation, with its errors and nothing stored; else the counter is incremented and the secured signal is stored under "bucket_<counter>", with its fingerprint recorded now; the fresh nonce stays in the store, the replay cache is updated by the validation, and the log gains 'signal_created', 'signal_validated' and 'bucket_send_failed' or 'bucket_send_success', in that order |
| Bucket.BucketCommunicator.StoreValidated | utils/security_hardening.py:341-373 | the same outcome as a send, for a given secured signal and the stores before its validation: the stores change as the validation changes them, then the failure or success entry is logged |
| Bucket.BucketCommunicator.Record | utils/security_hardening.py:343-373 | a failed verdict leaves store and counter unchanged and logs 'bucket_send_failed' with the errors; a valid one stores under the next id and logs 'bucket_send_success' with that id |
| Bucket.BucketCommunicator.RecordFailure | utils/security_hardening.py:343-353 | a rejection carrying the validation errors and the caller's signal id; one 'bucket_send_failed' entry with the signal id and errors is logged |
| Bucket.BucketCommunicator.RecordSuccess | utils/security_hardening.py:355-373 | the counter grows by one and the signal is stored under the new id; one 'bucket_send_success' entry with the id, signal id and subject id is logged |
| Bucket.BucketCommunicator.ReceiveFromBucket | utils/security_hardening.py:375-404 | an unknown id yields nothing, changes no store and logs 'bucket_not_found'; a stored signal is returned iff it validates against the stores, the stores change as the validation changes them, and 'bucket_receive_violation' or 'bucket_receive_success' is logged after the validation's own entry; one in the replay cache is refused; entries are never removed |
| Bucket.BucketCommunicator.ReceiveStored | utils/security_hardening.py:383-404 | for a stored id: the signal is returned iff it validates against the stores, the stores change as the validation changes them, and 'bucket_receive_violation' or 'bucket_receive_success' is logged after the validation's own entry; one in the replay cache is refused |
| Bucket.BucketCommunicator.RecordReceive | utils/security_hardening.py:388-404 | an invalid verdict logs 'bucket_receive_violation' with the errors and returns nothing; a valid one logs 'bucket_receive_success' and returns the signal |
| Bucket.RecordedFingerprintIsReplay | utils/security_hardening.py:127-141 | a recorded fingerprint is still a replay at any later reading within 3600 s |
| Bucket.SendThenReceive | utils/security_hardening.py:336-404 | after a successful send, receiving that entry within the replay window yields nothing |
| Bucket.SendRecorded | utils/security_hardening.py:336-373 | after a successful send the stored signal's fingerprint is in the replay cache, stamped with the send's clock reading |
| Bucket.ReceiveReplayed | utils/security_hardening.py:375-392 | receiving a stored signal whose fingerprint is in the live replay cache yields nothing |
| AuthLogging.Types | utils/authorization_logging.py:175-176 | one event type per entry, in log order |
| AuthLogging.BumpCounts | utils/authorization_logging.py:177 | one bump adds one to the bumped type's count and to the total, and leaves the other counts |
| AuthLogging.TallyCons | utils/authorization_logging.py:174-177 | the keys and the well-formedness of a tally with a first element |
| AuthLogging.BumpKeepsWellFormed | utils/authorization_logging.py:177 | a bump keeps the keys distinct and the counts positive, and adds the bumped type to the keys |
| AuthLogging.TallyMeaning | utils/authorization_logging.py:174-177 | the counting loop's result has distinct keys, counts every occurrence of each type, and sums to the number of entries |
| AuthLogging.OccurrencesAppend | utils/authorization_logging.py:174-177 | the counts over a longer log are the sums of the counts over its parts |
| AuthLogging.AuthorizationLogger.constructor | utils/authorization_logging.py:27-28 | an empty log |
| AuthLogging.AuthorizationLogger.LogAuthorizationRequest | utils/authorization_logging.py:30-56 | appends one pending request entry and returns its id "req_<local stamp>" |
| AuthLogging.AuthorizationLogger.LogCoreAck | utils/authorization_logging.py:58-77 | appends one "authorized" entry with Core's response |
| AuthLogging.AuthorizationLogger.LogCoreDeny | utils/authorization_logging.py:79-101 | appends a "denied" entry, then a discard entry with reason "Core DENY", under the same id |
| AuthLogging.AuthorizationLogger.LogCoreTimeout | utils/authorization_logging.py:103-125 | appends a "timeout" entry with the duration, then a discard entry with reason "Core TIMEOUT", under the same id |
| AuthLogging.AuthorizationLogger.LogActionExecution | utils/authorization_logging.py:127-146 | appends one "executed" entry with the action's result |
| AuthLogging.AuthorizationLogger.LogAuditDiscard | utils/authorization_logging.py:148-167 | appends one "discarded" entry with its reason |
| AuthLogging.AuthorizationLogger.GetAuditSummary | utils/authorization_logging.py:169-184 | the recent entries are the log's last `limit`; the total is the log length; the counts have distinct keys, sum to the recent count, and give each type's number of occurrences |
| AuthLogging.AuthorizationLogger.ClearAuditLog | utils/authorization_logging.py:186-188 | the log is empty |
| AuthLogging.DenyCounted | utils/authorization_logging.py:79-101 | logging a deny adds exactly one "core_deny" and one "audit_log" to the per-type counts |
| CoreAuthorization.GetSignalForAction | utils/core_authorization.py:162-171 | death escalates, rebirth allows, the three gating actions restrict; the "nudge" default is unreachable |
| CoreAuthorization.ApplyIrreversibleActionIfAuthorized | utils/core_authorization.py:174-212 | keeps the input's other keys and adds none but action_executed, execution_result, error and reason; action_executed is true iff authorized and the action is absent or returns; adds the reason when unauthorized, the result or error otherwise |
| CoreAuthorization.UnauthorizedIgnoresAction | utils/core_authorization.py:207-212 | without authorization the outcome does not depend on the action function |
| CoreAuthorization.GateMessage | utils/core_authorization.py:113-159 | status and authorized match the outcome; action_executed implies authorized; audit_logged iff denied or timed out; fallback_action iff timed out |
| CoreAuthorization.GateOutcomes | utils/core_authorization.py:107-159 | allowed iff an in-time ACK; denied iff an in-time DENY; otherwise a timeout; the action runs only when allowed |
| CoreAuthorization.ApplyAfterGate | utils/core_authorization.py:174-212 | applying an action to the gate's result runs it only if the gate allowed; otherwise it only adds the not-authorized reason |
| CoreAuthorization.GateLogShape | utils/core_authorization.py:60-159 | the request is logged first and every entry carries one event id; the log ends in a discard iff denied or timed out, and logs an execution iff the action ran |
| CoreAuthorization.AuthorizeIrreversibleAction | utils/core_authorization.py:39-159 | the polling loop yields the gate's decision on Core's reply at the first clock check, and appends exactly the gate's log entries; severity 0.9, reason "IRREVERSIBLE_ACTION" and timeout 10 by default |
| KarmaSignalContract.SignalData | utils/karma_signal_contract.py:30-40 | a new signal has exactly the nine fields |
| KarmaSignalContract.KarmaSignal.constructor | utils/karma_signal_contract.py:15-40 | stores the nine fields, with default severity 0.0, reason "GENERIC", ttl 300 and Core ACK required |
| KarmaSignalContract.KarmaSignal.CreateSignal | utils/karma_signal_contract.py:82-101 | a fresh signal with the same fields the constructor stores |
| KarmaSignalContract.KarmaSignal.ToDict | utils/karma_signal_contract.py:42-44 | the stored dictionary itself |
| KarmaSignalContract.KarmaSignal.SubjectId | utils/karma_signal_contract.py:46-48 | the stored subject id, or None when absent |
| KarmaSignalContract.KarmaSignal.Context | utils/karma_signal_contract.py:50-52 | the stored context, or None when absent |
| KarmaSignalContract.KarmaSignal.Signal | utils/karma_signal_contract.py:54-56 | the stored signal, or None when absent |
| KarmaSignalContract.KarmaSignal.Severity | utils/karma_signal_contract.py:58-60 | the stored severity, or None when absent |
| KarmaSignalContract.KarmaSignal.ReasonCode | utils/karma_signal_contract.py:62-64 | the stored reason code, or None when absent |
| KarmaSignalContract.KarmaSignal.Ttl | utils/karma_signal_contract.py:66-68 | the stored ttl, or 300 when absent |
| KarmaSignalContract.KarmaSignal.RequiresCoreAck | utils/karma_signal_contract.py:70-72 | the stored flag, or true when absent |
| KarmaSignalContract.KarmaSignal.Timestamp | utils/karma_signal_contract.py:74-76 | the stored timestamp, or None when absent |
| KarmaSignalContract.KarmaSignal.SignalId | utils/karma_signal_contract.py:78-80 | the stored signal id, or None when absent |
| KarmaSignalContract.AccessorsReturnStored | utils/karma_signal_contract.py:30-80 | a constructed signal reads back every argument through its accessor |
| KarmaSignalContract.ConstraintTable | utils/karma_signal_contract.py:177-187 | nine actions; every signal is allow, nudge or restrict, and every severity lies in [0, 1] |
| KarmaSignalContract.EvaluateConstraintSignal | utils/karma_signal_contract.py:164-201 | a listed action yields the user, the context, the table's signal, severity and reason, ttl 300 and Core ACK required; any other action yields None |
| KarmaSignalContract.ConstraintVerdictIsUnstampedSignal | utils/karma_signal_contract.py:30-199 | a constraint verdict is a default-ttl, ACK-required signal without its timestamp and id |
| KarmaSignalContract.IsConstraintOnlyMode | utils/karma_signal_contract.py:153-161 | true iff the flag was set to true; false while it was never set |
| KarmaSignalContract.EnforceConstraintOnlyMode | utils/karma_signal_contract.py:133-150 | afterwards the flag reads back as `enabled`; the status reports success, the new value and the time |
| Authorization.Lower | utils/authorization.py:46-47 | lower-casing keeps the length and maps each character |
| Authorization.Upper | utils/authorization.py:46-47 | upper-casing keeps the length and maps each character |
| Authorization.LowerOfUpper | utils/authorization.py:46-59 | lower-casing an upper-cased value gives the value lower-cased |
| Authorization.Contains | utils/authorization.py:52-60 | `sub in s` is true iff `sub` occurs at some position of `s` |
| Authorization.ShiftOccurrence | utils/authorization.py:52-60 | when `sub` is not a prefix of `s`, it occurs in `s` iff it occurs in `s[1..]` |
| Authorization.HeaderLower | utils/authorization.py:46-59 | a present header lower-cased, an absent one the empty string |
| Authorization.Forbidden | utils/authorization.py:66-73 | a 403 whose detail has type "authorization_error" and field "access_control" |
| Authorization.CheckAuthorizedSource | utils/authorization.py:31-77 | an unrestricted path passes whatever the headers; a restricted one passes iff x-source is an authorized source or "bucket"/"core" occurs in x-source, authorization or x-karmachain-origin; otherwise a 403 is raised; never false |
| Authorization.SubPathsAreNotRestricted | utils/authorization.py:20-44 | "/api/v1/karma/x" and "/api/v1/karma/" are not restricted: matching is exact |
| Authorization.HeaderCaseIgnored | utils/authorization.py:46-59 | upper-casing any header value does not change the decision |
| Authorization.UpperCaseSourceAccepted | utils/authorization.py:46-51 | a restricted call with x-source "BUCKET" passes |
| Authorization.MissingHeadersRefused | utils/authorization.py:63-73 | a restricted call without any of the three headers is refused with the 403 |

## Left out

- Hashing, HMAC, JSON serialisation, ISO-8601 parsing and clock formatting are foreign library calls. They are uninterpreted functions of `Crypto.Primitives`. A 64-character digest cannot be collision-free over all values, so no lemma assumes that. The tamper lemmas assume only that the digest or HMAC tells apart the one pair of values they compare.
- SignatureTamperEvident: a signature fails over a changed mapping only when the HMAC tells the two mappings apart; HMAC-SHA256's collision resistance is assumed per pair, not proved.
- FingerprintIgnoresVolatile: sharing a fingerprint implies agreeing outside the volatile fields only when the digest tells the two non-volatile parts apart.
- PresignedDataFailsVerification: the "Invalid signature" outcome holds when the HMAC tells the checked mapping from the signed one; otherwise the lemma states that the check passes.
- LinkedChainVerifiesOnlyWhenTrivial: once the genesis entry has been trimmed away, chain failure is proved only for a digest that tells a sealed entry from its unsealed form; for any other digest the lemma states the collision the chain would need.
- SecurityHardening.SecurityManager.GetAuditTrail, AuthLogging.AuthorizationLogger.GetAuditSummary, AuthLogging.AuthorizationLogger.ClearAuditLog, Bucket.BucketCommunicator.ReceiveFromBucket, Bucket.BucketCommunicator.RecordFailure, KarmaSignalContract.KarmaSignal.ToDict: aliasing is not modelled; every result here is a value. In the source these results share the live object:
  - `get_audit_trail` returns the audit list itself when it holds at most `limit` entries;
  - `get_audit_summary` returns the log list itself under "entries" when it holds at most `limit` entries, and `clear_audit_log` empties that same list in place;
  - `receive_from_bucket` returns the stored dictionary;
  - a failed send's result shares its `errors` list with the 'bucket_send_failed' entry's details;
  - `to_dict` returns the signal's own dictionary.

  So a held trail or summary that grows with later appends or empties on a clear is not modelled. Nor is a caller's edit of a returned dictionary or list changing the bucket store, the signal, or an audit entry that `verify_audit_chain` later hashes.
- The RSA key and padding imports in utils/security_hardening.py are unused and not modelled.
- The `secrets` key, the random nonce bytes, `uuid4` and every clock reading are parameters. Each operation takes one clock reading and uses it everywhere the source reads the clock during that call.
- The `created_at` field of a nonce record is not modelled; only the issue second is kept.
- `logger` calls and `print` are left out; only the audit logs that the code keeps are modelled.
- Python crash paths count as failed checks or as no verdict. These are: a non-string timestamp (`AttributeError`); an unhashable nonce (`TypeError`); a truthy non-string signature (`TypeError`); a string signature with a non-ASCII character, on which `hmac.compare_digest` raises `TypeError` after the nonce and replay checks have already changed the stores (the model reports "Invalid signature" instead); an `authorization_response` that is not a dictionary.
- `str.lower` is modelled on ASCII letters only; header names are taken as already lower-cased, as the web framework delivers them.
- FastAPI's `Request` and `HTTPException` become a path plus a header map, and a `Raised` outcome.
- `BucketCommunicator.get_all_buckets`, the module-level singletons and the convenience wrappers at the end of utils/security_hardening.py and utils/authorization_logging.py only forward to one object's methods. They are not modelled.
- The timing of the gate is left out: `asyncio.sleep` and the `time.time()` polling are represented by the sequence of elapsed readings at each check of the loop.
- The gate builds and emits a karma signal, which is a call into the sovereign bridge. It also passes `product_context` and `opaque_reason_code`, which the `KarmaSignal` constructor does not accept. The emitted reply is therefore a parameter, and the construction is not modelled.
- The `ttl` argument of `authorize_irreversible_action` only feeds the emitted karma signal, which is a parameter here; it is not modelled.
- CoreAuthorization.GateOutcomes: an action result that JSON cannot serialise is not modelled; `ActionOutcome` returns only JSON-like values. In the source, `log_action_execution` then raises inside the `try` (utils/core_authorization.py:124-133, the `json.dumps` at utils/authorization_logging.py:145). The result is "allowed" with `action_executed` false, an `execution_error` and the `execution_result`, and no execution entry is logged.
- CoreAuthorization.GateMessage: the allowed dictionary with both `execution_result` and `execution_error`, which the unserialisable result above produces, is not modelled.
- CoreAuthorization.AuthorizeIrreversibleAction: a Core response that JSON cannot serialise is not modelled. In the source, `log_core_ack` or `log_core_deny` then raises before appending its entry, and the exception leaves the gate. The model's Core response holds JSON-like values only.
- CoreAuthorization.AuthorizeIrreversibleAction: uses one timestamp for all entries of one run, where the source reads the clock for each entry.
- `validate_no_direct_execution_without_ack`, `test_core_authorization_gate`, the fixed-argument wrappers `authorize_death_event` to `authorize_progression_gate`, and the logging closures in the last two are not modelled. They only print, or forward to the gate with fixed arguments.
- `emit_canonical_karma_signal` is a call into the sovereign bridge and is not modelled. Of the bridge, only the constraint-only flag is modelled.
- Bucket.BucketId: it is not proved that distinct counters give distinct ids, since decimal rendering is not proved injective.

=== FILE: audit_chain.dfy ===
/**
 * The hash-chained audit log of `SecurityManager`
 * (utils/security_hardening.py): the entry record, the entry that
 * `log_security_event` builds, the retention trim, what
 * `verify_audit_chain` checks, and the link invariant that the appends
 * actually keep.
 *
 * As written, the chain the appends build is not the chain the verifier
 * checks: an entry records as `previous_hash` the digest of its
 * predecessor WITHOUT the predecessor's `entry_hash` field, while the
 * verifier digests the predecessor WITH it; and the genesis entry carries
 * a sentinel string instead of a digest. The lemmas below prove the link
 * invariant that does hold, and prove that the verifier rejects every
 * such chain of two or more entries, unless the digest confuses an entry
 * with the same entry without its `entry_hash`.
 */
module AuditChain {
  import opened Values
  import opened Crypto

  /** `audit_retention`: the log keeps its newest 1000 entries. */
  const AuditRetention: nat := 1000
  const GenesisEventId: string := "genesis_0000000000000000"
  /** The sentinel that stands where the genesis entry's digest would be. */
  const GenesisHash: string := "genesis_hash_0000000000000000"

  /** An audit entry; `previousHash` and `entryHash` are the optional keys
      `previous_hash` and `entry_hash` of the source's dictionary. */
  datatype AuditEntry = AuditEntry(
    eventId: string,
    timestamp: string,
    eventType: string,
    details: Message,
    previousHash: Option<string>,
    entryHash: Option<string>)

  function OptionalField(key: string, v: Option<string>): Message {
    match v
    case Some(h) => map[key := Str(h)]
    case None => map[]
  }

  /** The entry as the dictionary that is serialised and hashed. */
  function EntryJson(e: AuditEntry): (j: Value)
    ensures j.Obj? && ("entry_hash" in j.fields <==> e.entryHash.Some?)
  {
    Obj(map["event_id" := Str(e.eventId), "timestamp" := Str(e.timestamp),
            "event_type" := Str(e.eventType), "details" := Obj(e.details)]
        + OptionalField("previous_hash", e.previousHash)
        + OptionalField("entry_hash", e.entryHash))
  }

  /** The genesis entry `_initialize_audit_chain` writes. */
  function Genesis(stamp: string): AuditEntry {
    AuditEntry(GenesisEventId, stamp, "chain_initialization",
               map["system" := Str("karmachain_security"), "version" := Str("2.0")],
               None, Some(GenesisHash))
  }

  /** The entry without its `entry_hash` key. */
  function Unsealed(e: AuditEntry): AuditEntry {
    e.(entryHash := None)
  }

  /** The entry's `entry_hash` is the digest of the rest of the entry. */
  ghost predicate Sealed(p: Primitives, e: AuditEntry) {
    e.entryHash == Some(Digest(p, EntryJson(Unsealed(e))))
  }

  /** The entry `log_security_event` appends: it links to the last recorded
      hash (when that is non-empty) and is sealed with the digest of
      itself without `entry_hash`. */
  function NewEntry(p: Primitives, lastHash: string, eventId: string, stamp: string,
                    eventType: string, details: Message): (e: AuditEntry)
    ensures Sealed(p, e)
    ensures e.previousHash == (if lastHash != "" then Some(lastHash) else None)
    ensures e.eventId == eventId && e.eventType == eventType && e.details == details
  {
    var draft := AuditEntry(eventId, stamp, eventType, details,
                            if lastHash != "" then Some(lastHash) else None, None);
    draft.(entryHash := Some(Digest(p, EntryJson(draft))))
  }

  /** The event id of `log_security_event`: "sec_" and the local-time stamp. */
  function SecEventId(p: Primitives, now: real): string {
    "sec_" + p.localStamp(now)
  }

  /** The entry `log_security_event(eventType, details)` builds at clock reading `now`. */
  function SecEntry(p: Primitives, lastHash: string, now: real, eventType: string, details: Message): AuditEntry {
    NewEntry(p, lastHash, SecEventId(p, now), p.isoFormatUtc(now), eventType, details)
  }

  /** The two fields `log_security_event` updates: the log and the last hash. */
  datatype AuditState = AuditState(log: seq<AuditEntry>, lastHash: string)

  /** The audit state after `log_security_event(eventType, details)` at
      clock reading `now`: the new entry appended, the log trimmed, and the
      entry's hash recorded as the last hash. */
  function Logged(p: Primitives, st: AuditState, now: real, eventType: string, details: Message): AuditState {
    var e := SecEntry(p, st.lastHash, now, eventType, details);
    AuditState(Retain(st.log + [e]), e.entryHash.value)
  }

  /** The audit state after logging `events` (event type, details) in order,
      all at clock reading `now`. */
  function LoggedAll(p: Primitives, st: AuditState, now: real, events: seq<(string, Message)>): AuditState
    decreases |events|
  {
    if events == [] then st
    else LoggedAll(p, Logged(p, st, now, events[0].0, events[0].1), now, events[1..])
  }

  /** Logging three events in a row. */
  lemma LoggedThree(p: Primitives, st: AuditState, now: real, a: (string, Message), b: (string, Message),
                    c: (string, Message))
    ensures LoggedAll(p, st, now, [a, b, c])
      == Logged(p, Logged(p, Logged(p, st, now, a.0, a.1), now, b.0, b.1), now, c.0, c.1)
  {
    var st1 := Logged(p, st, now, a.0, a.1);
    var st2 := Logged(p, st1, now, b.0, b.1);
    assert [a, b, c][1..] == [b, c];
    assert LoggedAll(p, st, now, [a, b, c]) == LoggedAll(p, st1, now, [b, c]);
    assert [b, c][1..] == [c];
    assert LoggedAll(p, st1, now, [b, c]) == LoggedAll(p, st2, now, [c]);
    assert [c][1..] == [];
    assert LoggedAll(p, st2, now, [c]) == LoggedAll(p, Logged(p, st2, now, c.0, c.1), now, []);
  }

  /** The retention trim: the newest `AuditRetention` entries, in order. */
  function Retain(log: seq<AuditEntry>): (kept: seq<AuditEntry>)
    ensures |kept| <= AuditRetention || kept == log
    ensures |kept| == if |log| > AuditRetention then AuditRetention else |log|
    ensures kept == log[|log| - |kept|..]
  {
    if |log| > AuditRetention then log[|log| - AuditRetention..] else log
  }

  // ---------------------------------------------------------------------
  // What verify_audit_chain checks
  // ---------------------------------------------------------------------

  /** The entry's `previous_hash` equals the digest of the whole previous entry. */
  predicate LinkVerifies(p: Primitives, prev: AuditEntry, cur: AuditEntry) {
    cur.previousHash == Some(Digest(p, EntryJson(prev)))
  }

  /** A present, non-empty `entry_hash` equals the digest of the rest of the entry. */
  predicate OwnHashVerifies(p: Primitives, e: AuditEntry) {
    match e.entryHash
    case None => true
    case Some(h) => h == "" || h == Digest(p, EntryJson(Unsealed(e)))
  }

  /** The answer `verify_audit_chain` computes. */
  predicate ChainVerifies(p: Primitives, log: seq<AuditEntry>) {
    |log| <= 1 ||
    forall i :: 1 <= i < |log| ==> LinkVerifies(p, log[i - 1], log[i]) && OwnHashVerifies(p, log[i])
  }

  // ---------------------------------------------------------------------
  // What log_security_event actually keeps
  // ---------------------------------------------------------------------

  /** Every entry is sealed, except that the first may carry the genesis sentinel. */
  ghost predicate AllSealed(p: Primitives, log: seq<AuditEntry>) {
    forall i :: 0 <= i < |log| ==> SealedAt(p, log, i)
  }

  /** Entry `i` is sealed, or is a genesis entry at the front. */
  ghost predicate SealedAt(p: Primitives, log: seq<AuditEntry>, i: int)
    requires 0 <= i < |log|
  {
    Sealed(p, log[i]) || (i == 0 && log[i].entryHash == Some(GenesisHash))
  }

  /** Every entry's `previous_hash` is its predecessor's `entry_hash`. */
  ghost predicate HashLinked(log: seq<AuditEntry>) {
    forall i :: 1 <= i < |log| ==> LinkedAt(log, i)
  }

  /** Entry `i`'s `previous_hash` is its predecessor's `entry_hash`. */
  ghost predicate LinkedAt(log: seq<AuditEntry>, i: int)
    requires 1 <= i < |log|
  {
    log[i].previousHash == log[i - 1].entryHash
  }

  /** The link invariant of the log as the appends build it: every entry
      is sealed except a genesis entry at the front, every entry's
      `previous_hash` is its predecessor's `entry_hash`, the last entry's
      hash is the recorded last hash, and the log stays within retention. */
  ghost predicate ChainLinked(p: Primitives, log: seq<AuditEntry>, lastHash: string) {
    && 1 <= |log| <= AuditRetention
    && lastHash != ""
    && log[|log| - 1].entryHash == Some(lastHash)
    && AllSealed(p, log)
    && HashLinked(log)
  }

  /** The freshly initialised chain is linked. */
  lemma GenesisLinked(p: Primitives, stamp: string)
    ensures ChainLinked(p, [Genesis(stamp)], GenesisHash)
  {
  }

  /** Dropping a prefix keeps the entries sealed and linked. */
  lemma SuffixKeepsLinks(p: Primitives, log: seq<AuditEntry>, off: nat)
    requires off <= |log|
    requires AllSealed(p, log) && HashLinked(log)
    ensures AllSealed(p, log[off..]) && HashLinked(log[off..])
  {
    var kept := log[off..];
    forall i | 0 <= i < |kept|
      ensures SealedAt(p, kept, i)
    {
      assert SealedAt(p, log, off + i);
      assert kept[i] == log[off + i];
    }
    forall i | 1 <= i < |kept|
      ensures LinkedAt(kept, i)
    {
      assert LinkedAt(log, off + i);
      assert kept[i] == log[off + i] && kept[i - 1] == log[off + i - 1];
    }
  }

  /** Appending a sealed entry that links to the last one keeps the log sealed and linked. */
  lemma AppendKeepsLinks(p: Primitives, log: seq<AuditEntry>, e: AuditEntry)
    requires |log| >= 1 && AllSealed(p, log) && HashLinked(log)
    requires Sealed(p, e) && e.previousHash == log[|log| - 1].entryHash
    ensures AllSealed(p, log + [e]) && HashLinked(log + [e])
  {
    var full := log + [e];
    forall i | 0 <= i < |full|
      ensures SealedAt(p, full, i)
    {
      if i < |log| {
        assert SealedAt(p, log, i);
        assert full[i] == log[i];
      }
    }
    forall i | 1 <= i < |full|
      ensures LinkedAt(full, i)
    {
      if i < |log| {
        assert LinkedAt(log, i);
        assert full[i] == log[i];
      }
      assert full[i - 1] == log[i - 1];
    }
  }

  /** Appending the entry `log_security_event` builds and trimming to the
      retention cap keeps the chain linked, with the new entry's hash as
      the recorded last hash. */
  lemma AppendKeepsChainLinked(p: Primitives, log: seq<AuditEntry>, lastHash: string,
                               eventId: string, stamp: string, eventType: string, details: Message)
    requires ChainLinked(p, log, lastHash)
    ensures var e := NewEntry(p, lastHash, eventId, stamp, eventType, details);
      ChainLinked(p, Retain(log + [e]), e.entryHash.value)
  {
    var e := NewEntry(p, lastHash, eventId, stamp, eventType, details);
    var full := log + [e];
    AppendKeepsLinks(p, log, e);
    var kept := Retain(full);
    SuffixKeepsLinks(p, full, |full| - |kept|);
    assert kept[|kept| - 1] == e;
  }

  /** A chain that still starts with the genesis entry never verifies once
      anything has been appended: the first link holds the sentinel, which
      is not a 64-character digest. No assumption about the hash is needed. */
  lemma GenesisChainNeverVerifies(p: Primitives, log: seq<AuditEntry>, lastHash: string)
    requires ChainLinked(p, log, lastHash)
    requires |log| >= 2 && log[0].entryHash == Some(GenesisHash)
    ensures !ChainVerifies(p, log)
  {
    assert |GenesisHash| != 64;
    assert LinkedAt(log, 1);
    assert log[1].previousHash == Some(GenesisHash);
    assert !LinkVerifies(p, log[0], log[1]);
  }

  /** The digest tells every entry that carries an `entry_hash` from the
      same entry without it. */
  ghost predicate SealDistinguishes(p: Primitives) {
    forall e: AuditEntry :: e.entryHash.Some? ==> Digest(p, EntryJson(e)) != Digest(p, EntryJson(Unsealed(e)))
  }

  /** Primitives whose canonical JSON records only whether an "entry_hash"
      key is present, so that `SealDistinguishes` can be met. */
  function SealAwarePrimitives(): (p: Primitives)
    ensures SealDistinguishes(p)
  {
    var p := Primitives(
      (v: Value) => if v.Obj? && "entry_hash" in v.fields then "sealed" else "open",
      (s: string) => if s == "sealed" then OneDigest else ZeroDigest,
      (k: string, s: string) => ZeroDigest,
      (s: string) => None,
      (t: real) => "",
      (t: real) => "");
    assert ZeroDigest[0] != OneDigest[0];
    assert forall e: AuditEntry :: e.entryHash.Some? ==> Digest(p, EntryJson(e)) != Digest(p, EntryJson(Unsealed(e)));
    p
  }

  /** A linked chain of two or more entries verifies only when the digest
      confuses its first entry with that entry without `entry_hash`: each
      link was made from the predecessor without its `entry_hash`, the
      verifier digests it with it. When the digest tells the two apart,
      `verify_audit_chain` answers true exactly for a log of one entry. */
  lemma LinkedChainVerifiesOnlyWhenTrivial(p: Primitives, log: seq<AuditEntry>, lastHash: string)
    requires ChainLinked(p, log, lastHash)
    ensures log[0].entryHash.Some? && EntryJson(log[0]) != EntryJson(Unsealed(log[0]))
    ensures ChainVerifies(p, log) && |log| >= 2 ==> Digest(p, EntryJson(log[0])) == Digest(p, EntryJson(Unsealed(log[0])))
    ensures SealDistinguishes(p) ==> (ChainVerifies(p, log) <==> |log| == 1)
  {
    assert SealedAt(p, log, 0);
    assert "entry_hash" in EntryJson(log[0]).fields;
    assert "entry_hash" !in EntryJson(Unsealed(log[0])).fields;
    if |log| >= 2 && ChainVerifies(p, log) {
      if log[0].entryHash == Some(GenesisHash) {
        GenesisChainNeverVerifies(p, log, lastHash);
      } else {
        assert Sealed(p, log[0]) && LinkedAt(log, 1);
        assert LinkVerifies(p, log[0], log[1]);
      }
    }
  }
}

=== FILE: auth_logging.dfy ===
/**
 * `AuthorizationLogger` (utils/authorization_logging.py): an append-only
 * log of Core authorization events, one fixed entry shape per event kind,
 * and a summary that counts the recent entries by event type.
 *
 * Clock readings are parameters: `timestamp` is the
 * `datetime.now(timezone.utc).isoformat()` written into an entry and
 * `localStamp` the `strftime('%Y%m%d_%H%M%S_%f')` of a request id.
 */
module AuthLogging {
  import opened Values

  /** The kind-specific part of an entry. */
  datatype AuthEvent =
    | Request(context: string, severity: real, opaqueReasonCode: string)
    | Ack(coreResponse: Message)
    | Deny(coreResponse: Message)
    | Timeout(timeoutDuration: int)
    | Execution(executionResult: Value)
    | Discard(reason: string)

  /** An entry: the fields every entry has, and its kind-specific part. */
  datatype AuthEntry = AuthEntry(eventId: string, timestamp: string, subjectId: string, actionType: string, event: AuthEvent)

  /** `AuthorizationEventType`'s value written as "event_type". */
  function EventType(e: AuthEvent): string {
    match e
    case Request(_, _, _) => "authorization_request"
    case Ack(_) => "core_ack"
    case Deny(_) => "core_deny"
    case Timeout(_) => "core_timeout"
    case Execution(_) => "action_execution"
    case Discard(_) => "audit_log"
  }

  /** The "status" each kind of entry carries. */
  function Status(e: AuthEvent): string {
    match e
    case Request(_, _, _) => "pending"
    case Ack(_) => "authorized"
    case Deny(_) => "denied"
    case Timeout(_) => "timeout"
    case Execution(_) => "executed"
    case Discard(_) => "discarded"
  }

  // ---------------------------------------------------------------------
  // The per-type count of get_audit_summary
  // ---------------------------------------------------------------------

  /** One key of `event_counts` with its count; the dictionary keeps its
      keys in first-insertion order, so it is a sequence of these. */
  datatype TypeCount = TypeCount(eventType: string, count: nat)

  /** The event types of a run of entries, in order. */
  function Types(entries: seq<AuthEntry>): (ts: seq<string>)
    ensures |ts| == |entries|
    ensures forall i :: 0 <= i < |entries| ==> ts[i] == EventType(entries[i].event)
  {
    seq(|entries|, i requires 0 <= i < |entries| => EventType(entries[i].event))
  }

  /** `counts[t] = counts.get(t, 0) + 1`. */
  function Bump(tally: seq<TypeCount>, t: string): seq<TypeCount> {
    if tally == [] then [TypeCount(t, 1)]
    else if tally[0].eventType == t then [TypeCount(t, tally[0].count + 1)] + tally[1..]
    else [tally[0]] + Bump(tally[1..], t)
  }

  /** The counts after the loop has seen `types`. */
  function Tally(types: seq<string>): seq<TypeCount> {
    if types == [] then [] else Bump(Tally(types[..|types| - 1]), types[|types| - 1])
  }

  /** `counts.get(t, 0)`. */
  function Lookup(tally: seq<TypeCount>, t: string): nat {
    if tally == [] then 0
    else if tally[0].eventType == t then tally[0].count
    else Lookup(tally[1..], t)
  }

  /** The sum of the counts. */
  function Total(tally: seq<TypeCount>): nat {
    if tally == [] then 0 else tally[0].count + Total(tally[1..])
  }

  /** How many times `t` occurs. */
  function Occurrences(types: seq<string>, t: string): nat {
    if types == [] then 0
    else Occurrences(types[..|types| - 1], t) + (if types[|types| - 1] == t then 1 else 0)
  }

  /** No key appears twice and every count is positive. */
  predicate WellFormed(tally: seq<TypeCount>) {
    && (forall i, j :: 0 <= i < j < |tally| ==> tally[i].eventType != tally[j].eventType)
    && (forall i :: 0 <= i < |tally| ==> tally[i].count > 0)
  }

  lemma {:induction false} BumpCounts(tally: seq<TypeCount>, t: string)
    ensures Total(Bump(tally, t)) == Total(tally) + 1
    ensures forall u :: Lookup(Bump(tally, t), u) == Lookup(tally, u) + (if u == t then 1 else 0)
  {
    if tally != [] && tally[0].eventType != t {
      BumpCounts(tally[1..], t);
      assert Bump(tally, t)[1..] == Bump(tally[1..], t);
    }
  }

  /** The keys of a tally. */
  function KeySet(tally: seq<TypeCount>): set<string> {
    set i | 0 <= i < |tally| :: tally[i].eventType
  }

  /** The keys and the well-formedness of a tally with a first element. */
  lemma TallyCons(x: TypeCount, rest: seq<TypeCount>)
    ensures KeySet([x] + rest) == {x.eventType} + KeySet(rest)
    ensures WellFormed([x] + rest) <==> x.count > 0 && x.eventType !in KeySet(rest) && WellFormed(rest)
  {
    var c := [x] + rest;
    assert c[0] == x && x.eventType in KeySet(c);
    forall u | u in KeySet(c) ensures u in {x.eventType} + KeySet(rest) {
      var i :| 0 <= i < |c| && c[i].eventType == u;
      if i > 0 { assert rest[i - 1] == c[i]; }
    }
    forall u | u in KeySet(rest) ensures u in KeySet(c) {
      var i :| 0 <= i < |rest| && rest[i].eventType == u;
      assert c[i + 1] == rest[i];
    }
    if WellFormed(c) {
      forall i, j | 0 <= i < j < |rest| ensures rest[i].eventType != rest[j].eventType {
        assert rest[i] == c[i + 1] && rest[j] == c[j + 1];
      }
      forall i | 0 <= i < |rest| ensures rest[i].count > 0 {
        assert rest[i] == c[i + 1];
      }
      forall u | u in KeySet(rest) ensures u != x.eventType {
        var i :| 0 <= i < |rest| && rest[i].eventType == u;
        assert c[i + 1] == rest[i];
      }
    }
    if x.count > 0 && x.eventType !in KeySet(rest) && WellFormed(rest) {
      forall i, j | 0 <= i < j < |c| ensures c[i].eventType != c[j].eventType {
        assert c[j] == rest[j - 1];
        if i > 0 { assert c[i] == rest[i - 1]; }
        else { assert c[j].eventType in KeySet(rest); }
      }
      forall i | 1 <= i < |c| ensures c[i].count > 0 {
        assert c[i] == rest[i - 1];
      }
    }
  }

  /** Bumping keeps the keys distinct and the counts positive, and adds
      the bumped type to the keys. */
  lemma {:induction false} BumpKeepsWellFormed(tally: seq<TypeCount>, t: string)
    requires WellFormed(tally)
    ensures WellFormed(Bump(tally, t))
    ensures KeySet(Bump(tally, t)) == KeySet(tally) + {t}
  {
    if tally == [] {
      assert Bump(tally, t) == [TypeCount(t, 1)] + [];
      TallyCons(TypeCount(t, 1), []);
    } else {
      var rest := tally[1..];
      assert tally == [tally[0]] + rest;
      TallyCons(tally[0], rest);
      if tally[0].eventType == t {
        TallyCons(TypeCount(t, tally[0].count + 1), rest);
      } else {
        BumpKeepsWellFormed(rest, t);
        TallyCons(tally[0], Bump(rest, t));
      }
    }
  }

  /** The tally holds each type once, counts every occurrence, and its
      counts sum to the number of entries counted. */
  lemma {:induction false} TallyMeaning(types: seq<string>)
    ensures WellFormed(Tally(types))
    ensures Total(Tally(types)) == |types|
    ensures forall t :: Lookup(Tally(types), t) == Occurrences(types, t)
  {
    if types != [] {
      var init := types[..|types| - 1];
      TallyMeaning(init);
      BumpCounts(Tally(init), types[|types| - 1]);
      BumpKeepsWellFormed(Tally(init), types[|types| - 1]);
    }
  }

  /** The type counts of a log extended by more entries: each type's count
      grows by its number of occurrences among the new entries. */
  lemma {:induction false} OccurrencesAppend(types: seq<string>, more: seq<string>, t: string)
    ensures Occurrences(types + more, t) == Occurrences(types, t) + Occurrences(more, t)
  {
    if more != [] {
      var all := types + more;
      assert all[..|all| - 1] == types + more[..|more| - 1];
      OccurrencesAppend(types, more[..|more| - 1], t);
    } else {
      assert types + more == types;
    }
  }

  /** `get_audit_summary`'s record. */
  datatype AuditSummary = AuditSummary(
    totalEntries: nat,
    recentEntries: nat,
    eventCounts: seq<TypeCount>,
    entries: seq<AuthEntry>)

  class AuthorizationLogger {
    var auditLog: seq<AuthEntry>

    constructor ()
      ensures auditLog == []
    {
      auditLog := [];
    }

    /** `log_authorization_request`: one pending request entry; its id is
        "req_" and the local-time stamp. */
    method LogAuthorizationRequest(subjectId: string, actionType: string, context: string, severity: real,
                                   opaqueReasonCode: string, localStamp: string, timestamp: string)
      returns (eventId: string)
      modifies this
      ensures eventId == "req_" + localStamp
      ensures auditLog == old(auditLog) + [AuthEntry(eventId, timestamp, subjectId, actionType,
                                                     Request(context, severity, opaqueReasonCode))]
    {
      eventId := "req_" + localStamp;
      auditLog := auditLog + [AuthEntry(eventId, timestamp, subjectId, actionType, Request(context, severity, opaqueReasonCode))];
    }

    /** `log_core_ack`: one "authorized" entry. */
    method LogCoreAck(eventId: string, subjectId: string, actionType: string, coreResponse: Message, timestamp: string)
      modifies this
      ensures auditLog == old(auditLog) + [AuthEntry(eventId, timestamp, subjectId, actionType, Ack(coreResponse))]
    {
      auditLog := auditLog + [AuthEntry(eventId, timestamp, subjectId, actionType, Ack(coreResponse))];
    }

    /** `log_audit_discard`: one "discarded" audit entry with its reason. */
    method LogAuditDiscard(eventId: string, subjectId: string, actionType: string, reason: string, timestamp: string)
      modifies this
      ensures auditLog == old(auditLog) + [AuthEntry(eventId, timestamp, subjectId, actionType, Discard(reason))]
    {
      auditLog := auditLog + [AuthEntry(eventId, timestamp, subjectId, actionType, Discard(reason))];
    }

    /** `log_core_deny`: a "denied" entry, then a discard entry with reason
        "Core DENY" under the same event id. */
    method LogCoreDeny(eventId: string, subjectId: string, actionType: string, coreResponse: Message,
                       timestamp: string, discardTimestamp: string)
      modifies this
      ensures auditLog == old(auditLog) + [AuthEntry(eventId, timestamp, subjectId, actionType, Deny(coreResponse)),
                                           AuthEntry(eventId, discardTimestamp, subjectId, actionType, Discard("Core DENY"))]
    {
      auditLog := auditLog + [AuthEntry(eventId, timestamp, subjectId, actionType, Deny(coreResponse))];
      LogAuditDiscard(eventId, subjectId, actionType, "Core DENY", discardTimestamp);
    }

    /** `log_core_timeout`: a "timeout" entry, then a discard entry with
        reason "Core TIMEOUT" under the same event id. */
    method LogCoreTimeout(eventId: string, subjectId: string, actionType: string, timeoutDuration: int,
                          timestamp: string, discardTimestamp: string)
      modifies this
      ensures auditLog == old(auditLog) + [AuthEntry(eventId, timestamp, subjectId, actionType, Timeout(timeoutDuration)),
                                           AuthEntry(eventId, discardTimestamp, subjectId, actionType, Discard("Core TIMEOUT"))]
    {
      auditLog := auditLog + [AuthEntry(eventId, timestamp, subjectId, actionType, Timeout(timeoutDuration))];
      LogAuditDiscard(eventId, subjectId, actionType, "Core TIMEOUT", discardTimestamp);
    }

    /** `log_action_execution`: one "executed" entry. */
    method LogActionExecution(eventId: string, subjectId: string, actionType: string, executionResult: Value,
                              timestamp: string)
      modifies this
      ensures auditLog == old(auditLog) + [AuthEntry(eventId, timestamp, subjectId, actionType, Execution(executionResult))]
    {
      auditLog := auditLog + [AuthEntry(eventId, timestamp, subjectId, actionType, Execution(executionResult))];
    }

    /** `get_audit_summary(limit)`: the last `limit` entries, the log's
        length, and the per-type counts of those entries in the order the
        types first appear. */
    method GetAuditSummary(limit: int := 100) returns (s: AuditSummary)
      ensures s.entries == LastEntries(auditLog, limit)
      ensures s.entries == auditLog[|auditLog| - |s.entries|..]
      ensures limit >= 1 ==> s.recentEntries == if limit < |auditLog| then limit else |auditLog|
      ensures s.totalEntries == |auditLog| && s.recentEntries == |s.entries|
      ensures WellFormed(s.eventCounts)
      ensures Total(s.eventCounts) == s.recentEntries
      ensures forall t :: Lookup(s.eventCounts, t) == Occurrences(Types(s.entries), t)
    {
      var recent := LastEntries(auditLog, limit);
      var counts: seq<TypeCount> := [];
      for i := 0 to |recent|
        invariant counts == Tally(Types(recent[..i]))
      {
        assert Types(recent[..i + 1])[..i] == Types(recent[..i]);
        counts := Bump(counts, EventType(recent[i].event));
      }
      assert recent[..|recent|] == recent;
      TallyMeaning(Types(recent));
      s := AuditSummary(|auditLog|, |recent|, counts, recent);
    }

    /** `clear_audit_log`. */
    method ClearAuditLog()
      modifies this
      ensures auditLog == []
    {
      auditLog := [];
    }
  }

  /** Logging a deny adds one "core_deny" and one "audit_log" entry to the
      counts of a summary over the whole log, and leaves every other count. */
  lemma DenyCounted(log: seq<AuthEntry>, deny: AuthEntry, discard: AuthEntry, t: string)
    requires deny.event.Deny? && discard.event.Discard?
    ensures Occurrences(Types(log + [deny, discard]), t)
         == Occurrences(Types(log), t) + (if t == "core_deny" then 1 else 0) + (if t == "audit_log" then 1 else 0)
  {
    var more := ["core_deny", "audit_log"];
    assert Types(log + [deny, discard]) == Types(log) + more;
    OccurrencesAppend(Types(log), more, t);
    assert more[..1] == ["core_deny"] && more[..1][..0] == [];
    assert Occurrences(["core_deny"], t) == if t == "core_deny" then 1 else 0;
    assert Occurrences(more, t) == (if t == "core_deny" then 1 else 0) + (if t == "audit_log" then 1 else 0);
  }
}

=== FILE: authorization.dfy ===
/**
 * The source check of the sovereign-isolation layer (utils/authorization.py):
 * a call to one of the restricted endpoints must come from the Bucket or
 * the Core, as told by its `x-source`, `authorization` or
 * `x-karmachain-origin` header; any other path passes.
 *
 * A request is its URL path and its headers, keyed by lower-case header
 * name; the HTTP 403 the source raises is the `Raised` outcome.
 */
module Authorization {
  import opened Values

  const AuthorizedSources: seq<string> := ["bucket", "core", "internal"]

  const RestrictedEndpoints: seq<string> := [
    "/api/v1/log-action",
    "/api/v1/karma",
    "/api/v1/feedback_signal",
    "/api/v1/analytics",
    "/api/v1/karma/lifecycle",
    "/api/v1/karma/simulate",
    "/v1/karma/event"
  ]

  /** The HTTP error raised for a rejected call. */
  datatype HttpError = HttpError(statusCode: int, detail: Message)

  /** A call either returns a value or raises an HTTP error. */
  datatype Outcome = Returned(value: bool) | Raised(error: HttpError)

  function LowerChar(c: char): char {
    if 'A' <= c <= 'Z' then (c as int + 32) as char else c
  }

  function UpperChar(c: char): char {
    if 'a' <= c <= 'z' then (c as int - 32) as char else c
  }

  /** `str.lower` on ASCII letters. */
  function Lower(s: string): (r: string)
    ensures |r| == |s|
    ensures forall i :: 0 <= i < |s| ==> r[i] == LowerChar(s[i])
  {
    if s == [] then [] else [LowerChar(s[0])] + Lower(s[1..])
  }

  /** `str.upper` on ASCII letters. */
  function Upper(s: string): (r: string)
    ensures |r| == |s|
    ensures forall i :: 0 <= i < |s| ==> r[i] == UpperChar(s[i])
  {
    if s == [] then [] else [UpperChar(s[0])] + Upper(s[1..])
  }

  /** Lower-casing forgets whether a letter was upper-cased first. */
  lemma LowerOfUpper(s: string)
    ensures Lower(Upper(s)) == Lower(s)
  {
    forall i | 0 <= i < |s|
      ensures Lower(Upper(s))[i] == Lower(s)[i]
    {
      assert LowerChar(UpperChar(s[i])) == LowerChar(s[i]);
    }
  }

  /** `sub` sits in `s` starting at position `i`. */
  ghost predicate OccursAt(s: string, sub: string, i: int) {
    0 <= i && i + |sub| <= |s| && s[i..i + |sub|] == sub
  }

  /** `word` occurs somewhere in `s`. */
  ghost predicate Mentions(s: string, word: string) {
    exists i :: OccursAt(s, word, i)
  }

  /** Python's `sub in s` on strings, scanning from the left. */
  function Contains(s: string, sub: string): (r: bool)
    ensures r <==> Mentions(s, sub)
    decreases |s|
  {
    if |s| < |sub| then
      assert forall i :: !OccursAt(s, sub, i);
      false
    else if s[..|sub|] == sub then
      assert OccursAt(s, sub, 0);
      true
    else
      var r := Contains(s[1..], sub);
      ShiftOccurrence(s, sub);
      r
  }

  /** When `sub` is not a prefix of `s`, its occurrences in `s` are those
      in `s[1..]`, one place further right. */
  lemma ShiftOccurrence(s: string, sub: string)
    requires |s| >= |sub| && s[..|sub|] != sub
    ensures Mentions(s, sub) <==> Mentions(s[1..], sub)
  {
    if Mentions(s, sub) {
      var i :| OccursAt(s, sub, i);
      assert i != 0;
      assert s[1..][i - 1..i - 1 + |sub|] == s[i..i + |sub|];
      assert OccursAt(s[1..], sub, i - 1);
    }
    if Mentions(s[1..], sub) {
      var j :| OccursAt(s[1..], sub, j);
      assert s[j + 1..j + 1 + |sub|] == s[1..][j..j + |sub|];
      assert OccursAt(s, sub, j + 1);
    }
  }

  /** `headers.get(name, '').lower()`. */
  function HeaderLower(headers: map<string, string>, name: string): (v: string)
    ensures name in headers ==> v == Lower(headers[name])
    ensures name !in headers ==> v == ""
  {
    if name in headers then Lower(headers[name]) else ""
  }

  /** The acceptance rule for a restricted path, stated on occurrences:
      the lower-cased `x-source` is one of the authorized sources, or
      "bucket" or "core" occurs in the lower-cased `x-source`,
      `authorization` or `x-karmachain-origin`. */
  ghost predicate FromBucketOrCore(headers: map<string, string>) {
    var source := HeaderLower(headers, "x-source");
    var auth := HeaderLower(headers, "authorization");
    var origin := HeaderLower(headers, "x-karmachain-origin");
    || source in AuthorizedSources
    || Mentions(source, "bucket") || Mentions(source, "core")
    || Mentions(auth, "bucket") || Mentions(auth, "core")
    || Mentions(origin, "bucket") || Mentions(origin, "core")
  }

  /** The detail of the 403 a rejected call raises. */
  function Forbidden(path: string): (e: HttpError)
    ensures e.statusCode == 403
    ensures e.detail.Keys == {"error", "type", "field"}
    ensures e.detail["type"] == Str("authorization_error") && e.detail["field"] == Str("access_control")
  {
    HttpError(403, map[
      "error" := Str("Access denied: " + path + " is restricted to authorized sources only (Bucket or Core)"),
      "type" := Str("authorization_error"),
      "field" := Str("access_control")])
  }

  /** `check_authorized_source`: an unrestricted path passes; a restricted
      one passes exactly when the headers show a Bucket or Core origin, and
      otherwise raises a 403. It never returns false. */
  function CheckAuthorizedSource(path: string, headers: map<string, string>): (r: Outcome)
    ensures path !in RestrictedEndpoints ==> r == Returned(true)
    ensures r.Returned? ==> r.value
    ensures path in RestrictedEndpoints ==> (r.Returned? <==> FromBucketOrCore(headers))
    ensures r.Raised? ==> r.error == Forbidden(path)
  {
    if path in RestrictedEndpoints then
      var sourceHeader := HeaderLower(headers, "x-source");
      var authHeader := HeaderLower(headers, "authorization");
      var authorized :=
        || sourceHeader in AuthorizedSources
        || Contains(sourceHeader, "bucket")
        || Contains(sourceHeader, "core")
        || Contains(authHeader, "bucket")
        || Contains(authHeader, "core");
      var origin := HeaderLower(headers, "x-karmachain-origin");
      var authorized' := authorized || Contains(origin, "bucket") || Contains(origin, "core");
      if !authorized' then Raised(Forbidden(path)) else Returned(true)
    else
      Returned(true)
  }

  /** Restriction is exact membership: a sub-path or a trailing slash of a
      restricted endpoint is not restricted. */
  lemma SubPathsAreNotRestricted(headers: map<string, string>)
    ensures CheckAuthorizedSource("/api/v1/karma/x", headers) == Returned(true)
    ensures CheckAuthorizedSource("/api/v1/karma/", headers) == Returned(true)
  {
    assert "/api/v1/karma/x" !in RestrictedEndpoints by {
      assert |"/api/v1/karma/x"| == 15;
      assert "/api/v1/karma/x" != RestrictedEndpoints[1];
    }
    assert "/api/v1/karma/" !in RestrictedEndpoints by {
      assert |"/api/v1/karma/"| == 14;
    }
  }

  /** Upper-casing any header value leaves the decision unchanged, since
      every header is lower-cased before it is compared. */
  lemma HeaderCaseIgnored(path: string, headers: map<string, string>, name: string)
    requires name in headers
    ensures CheckAuthorizedSource(path, headers[name := Upper(headers[name])]) == CheckAuthorizedSource(path, headers)
  {
    var h' := headers[name := Upper(headers[name])];
    LowerOfUpper(headers[name]);
    forall n
      ensures HeaderLower(h', n) == HeaderLower(headers, n)
    {
    }
  }

  /** A restricted call whose `x-source` is "BUCKET" passes: lower-cased,
      it is one of the authorized sources. */
  lemma UpperCaseSourceAccepted(path: string)
    requires path in RestrictedEndpoints
    ensures CheckAuthorizedSource(path, map["x-source" := "BUCKET"]) == Returned(true)
  {
    var h := map["x-source" := "BUCKET"];
    assert HeaderLower(h, "x-source") == "bucket";
    assert FromBucketOrCore(h);
  }

  /** A restricted call without any of the three headers is refused. */
  lemma MissingHeadersRefused(path: string)
    requires path in RestrictedEndpoints
    ensures CheckAuthorizedSource(path, map[]) == Raised(Forbidden(path))
  {
    var h: map<string, string> := map[];
    assert !Contains("", "bucket") && !Contains("", "core");
    assert "" !in AuthorizedSources;
  }
}

=== FILE: bucket.dfy ===
/**
 * `BucketCommunicator` (utils/security_hardening.py): a staging store keyed
 * by "bucket_<counter>". A send secures the signal and validates it before
 * storing it; a receive validates the stored signal again. Because the
 * send's own validation already recorded the signal's fingerprint in the
 * replay cache, a receive inside the replay window is refused as a replay.
 */
module Bucket {
  import opened Values
  import opened Crypto
  import opened SecurityChecks
  import opened AuditChain
  import opened SecurityHardening

  /** The key "bucket_<n>" a send stores under. */
  function BucketId(n: int): (id: string)
    ensures |id| > 7 && id[..7] == "bucket_"
  {
    "bucket_" + IntString(n)
  }

  /** `id` is the id of one of the first `n` sends, "bucket_1" up to
      "bucket_<n>". */
  ghost predicate Issued(id: string, n: int) {
    exists i :: 1 <= i <= n && id == BucketId(i)
  }

  /** The reply of `send_to_bucket`. */
  datatype SendResult =
    | Sent(bucketId: string, signalId: Value)
    | Rejected(errors: seq<string>, signalId: Value)

  /** The event `send_to_bucket` logs last: the failure with its errors,
      or the success with the id the signal is stored under. */
  function SendEvent(signalData: Message, verdict: Validation, counter: int): (string, Message) {
    if !verdict.valid then
      ("bucket_send_failed", map["signal_id" := Get(signalData, "signal_id"), "errors" := StrList(verdict.errors)])
    else
      ("bucket_send_success", map["bucket_id" := Str(BucketId(counter + 1)), "signal_id" := Get(signalData, "signal_id"),
                                  "subject_id" := Get(signalData, "subject_id")])
  }

  /** The event `receive_from_bucket` logs after validating a stored signal. */
  function ReceiveEvent(bucketId: string, signal: Message, verdict: Validation): (string, Message) {
    if !verdict.valid then
      ("bucket_receive_violation", map["bucket_id" := Str(bucketId), "signal_id" := Get(signal, "signal_id"),
                                       "violations" := StrList(verdict.errors)])
    else
      ("bucket_receive_success", map["bucket_id" := Str(bucketId), "signal_id" := Get(signal, "signal_id"),
                                     "subject_id" := Get(signal, "subject_id")])
  }

  class BucketCommunicator {
    const security: SecurityManager
    var bucketStore: map<string, Message>
    var bucketCounter: int

    /** The manager's chain is linked and the store is `StoreIssued`. */
    ghost predicate Valid()
      reads this, security
    {
      security.Valid() && StoreIssued()
    }

    /** At most one entry was stored per increment of the counter, and
        every key is the id of one of the sends counted so far. */
    ghost predicate StoreIssued()
      reads this
    {
      && 0 <= bucketCounter
      && |bucketStore| <= bucketCounter
      && forall id :: id in bucketStore ==> Issued(id, bucketCounter)
    }

    constructor (security: SecurityManager)
      requires security.Valid()
      ensures Valid()
      ensures this.security == security && bucketStore == map[] && bucketCounter == 0
    {
      this.security := security;
      bucketStore := map[];
      bucketCounter := 0;
    }

    /** `send_to_bucket`: secure, validate, and store only a signal that
        passed, under the next counter value. */
    method SendToBucket(signalData: Message, now: real, randomHex: string) returns (result: SendResult)
      requires Valid()
      modifies this`bucketStore, this`bucketCounter
      modifies security`nonceStore, security`replayCache, security`auditLog, security`lastAuditHash
      ensures Valid()
      ensures result.signalId == Get(signalData, "signal_id")
      ensures var p := security.prims;
        var nonce := NonceFor(p, TruncSeconds(now), randomHex);
        var secured := Secure(p, security.secretKey, signalData, nonce, p.isoFormatUtc(now), DefaultTtl);
        var verdict := Validate(p, security.secretKey, old(security.nonceStore)[nonce := TruncSeconds(now)],
                                old(security.replayCache), secured, now);
        && (result.Rejected? <==> !verdict.valid)
        && (result.Rejected? ==>
              result.errors == verdict.errors
              && bucketStore == old(bucketStore) && bucketCounter == old(bucketCounter))
        && (result.Sent? ==>
              bucketCounter == old(bucketCounter) + 1
              && result.bucketId == BucketId(bucketCounter)
              && bucketStore == old(bucketStore)[result.bucketId := secured]
              && Fingerprint(p, secured) in security.replayCache
              && security.replayCache[Fingerprint(p, secured)].firstSeen == now)
        // the fresh nonce is registered and, valid, not consumed
        && security.nonceStore == old(security.nonceStore)[nonce := TruncSeconds(now)]
        && security.replayCache == ReplayCacheAfter(p, old(security.replayCache), secured, now)
        && security.Audit() == LoggedAll(p, old(security.Audit()), now,
             [("signal_created", CreatedDetails(secured, nonce)), ("signal_validated", ValidatedDetails(secured, verdict)),
              SendEvent(signalData, verdict, old(bucketCounter))])
    {
      var p := security.prims;
      var nonce := NonceFor(p, TruncSeconds(now), randomHex);
      var secured := security.CreateSecureKarmaSignal(signalData, now, randomHex);
      SecureFields(p, security.secretKey, signalData, nonce, p.isoFormatUtc(now), DefaultTtl);
      FreshNonceLifetime(old(security.nonceStore), nonce, now, now);
      ghost var created := security.Audit();
      ghost var verdict := Validate(p, security.secretKey, security.nonceStore, security.replayCache, secured, now);
      ghost var counter := bucketCounter;
      result := StoreValidated(signalData, secured, now);
      LoggedThree(p, old(security.Audit()), now, ("signal_created", CreatedDetails(secured, nonce)),
                  ("signal_validated", ValidatedDetails(secured, verdict)), SendEvent(signalData, verdict, counter));
    }

    /** The second half of `send_to_bucket`: validate the secured signal,
        then either log the failure or store it under the next counter
        value and log the success. */
    method StoreValidated(signalData: Message, secured: Message, now: real) returns (result: SendResult)
      requires Valid()
      modifies this`bucketStore, this`bucketCounter
      modifies security`nonceStore, security`replayCache, security`auditLog, security`lastAuditHash
      ensures Valid()
      ensures result.signalId == Get(signalData, "signal_id")
      ensures var p := security.prims;
        var verdict := Validate(p, security.secretKey, old(security.nonceStore), old(security.replayCache), secured, now);
        && (result.Rejected? <==> !verdict.valid)
        && (result.Rejected? ==>
              result.errors == verdict.errors
              && bucketStore == old(bucketStore) && bucketCounter == old(bucketCounter))
        && (result.Sent? ==>
              bucketCounter == old(bucketCounter) + 1
              && result.bucketId == BucketId(bucketCounter)
              && bucketStore == old(bucketStore)[result.bucketId := secured]
              && Fingerprint(p, secured) in security.replayCache
              && security.replayCache[Fingerprint(p, secured)].firstSeen == now)
        && security.nonceStore == NonceStoreAfterValidation(old(security.nonceStore), secured, now)
        && security.replayCache == ReplayCacheAfterValidation(p, old(security.replayCache), secured, now)
        && var event := SendEvent(signalData, verdict, old(bucketCounter));
           security.Audit() == Logged(p, AuditAfterValidation(p, old(security.Audit()), secured, verdict, now), now,
                                      event.0, event.1)
    {
      var p := security.prims;
      AcceptedIsRecordedIfValid(p, security.secretKey, security.nonceStore, security.replayCache, secured, now);
      var verdict := security.ValidateSecureKarmaSignal(secured, now);
      result := Record(signalData, secured, verdict, now);
    }

    /** The last step of `send_to_bucket`: log a failed validation, or
        store the signal under the next counter value and log the success. */
    method Record(signalData: Message, secured: Message, verdict: Validation, now: real) returns (result: SendResult)
      requires Valid()
      modifies this`bucketStore, this`bucketCounter, security`auditLog, security`lastAuditHash
      ensures Valid()
      ensures result.signalId == Get(signalData, "signal_id")
      ensures result.Rejected? <==> !verdict.valid
      ensures result.Rejected? ==>
        result.errors == verdict.errors && bucketStore == old(bucketStore) && bucketCounter == old(bucketCounter)
      ensures result.Sent? ==>
        && bucketCounter == old(bucketCounter) + 1
        && result.bucketId == BucketId(bucketCounter)
        && bucketStore == old(bucketStore)[result.bucketId := secured]
      ensures var event := SendEvent(signalData, verdict, old(bucketCounter));
        security.Audit() == Logged(security.prims, old(security.Audit()), now, event.0, event.1)
    {
      if !verdict.valid {
        result := RecordFailure(signalData, verdict.errors, now);
      } else {
        result := RecordSuccess(signalData, secured, now);
      }
    }

    /** A failed send: log the errors and leave the store as it was. */
    method RecordFailure(signalData: Message, errors: seq<string>, now: real) returns (result: SendResult)
      requires Valid()
      modifies security`auditLog, security`lastAuditHash
      ensures Valid()
      ensures result == Rejected(errors, Get(signalData, "signal_id"))
      ensures security.Audit() == Logged(security.prims, old(security.Audit()), now, "bucket_send_failed",
                                         map["signal_id" := Get(signalData, "signal_id"), "errors" := StrList(errors)])
    {
      var signalId := Get(signalData, "signal_id");
      var _ := security.LogSecurityEvent("bucket_send_failed",
        map["signal_id" := signalId, "errors" := StrList(errors)], now);
      return Rejected(errors, signalId);
    }

    /** A successful send: log it, then store the signal under the next
        counter value. */
    method RecordSuccess(signalData: Message, secured: Message, now: real) returns (result: SendResult)
      requires Valid()
      modifies this`bucketStore, this`bucketCounter, security`auditLog, security`lastAuditHash
      ensures Valid()
      ensures result == Sent(BucketId(old(bucketCounter) + 1), Get(signalData, "signal_id"))
      ensures bucketCounter == old(bucketCounter) + 1
      ensures bucketStore == old(bucketStore)[result.bucketId := secured]
      ensures security.Audit() == Logged(security.prims, old(security.Audit()), now, "bucket_send_success",
                                         map["bucket_id" := Str(result.bucketId), "signal_id" := Get(signalData, "signal_id"),
                                             "subject_id" := Get(signalData, "subject_id")])
    {
      var signalId := Get(signalData, "signal_id");
      var id := BucketId(bucketCounter + 1);
      // The log does not read the bucket fields, so they are updated after it.
      var _ := security.LogSecurityEvent("bucket_send_success",
        map["bucket_id" := Str(id), "signal_id" := signalId, "subject_id" := Get(signalData, "subject_id")], now);
      bucketCounter := bucketCounter + 1;
      bucketStore := bucketStore[id := secured];
      return Sent(id, signalId);
    }

    /** `receive_from_bucket`: an unknown id, or a stored signal that fails
        validation, yields nothing; the entry is never removed. */
    method ReceiveFromBucket(bucketId: string, now: real) returns (received: Option<Message>)
      requires Valid()
      modifies security`nonceStore, security`replayCache, security`auditLog, security`lastAuditHash
      ensures Valid()
      ensures bucketId !in bucketStore ==>
        && received == None
        && security.nonceStore == old(security.nonceStore) && security.replayCache == old(security.replayCache)
        && security.Audit() == Logged(security.prims, old(security.Audit()), now, "bucket_not_found",
                                      map["bucket_id" := Str(bucketId)])
      ensures bucketId in bucketStore ==>
        var p := security.prims;
        var signal := bucketStore[bucketId];
        var verdict := Validate(p, security.secretKey, old(security.nonceStore), old(security.replayCache), signal, now);
        var event := ReceiveEvent(bucketId, signal, verdict);
        && received == (if verdict.valid then Some(signal) else None)
        && security.nonceStore == NonceStoreAfterValidation(old(security.nonceStore), signal, now)
        && security.replayCache == ReplayCacheAfterValidation(p, old(security.replayCache), signal, now)
        && security.Audit() == Logged(p, AuditAfterValidation(p, old(security.Audit()), signal, verdict, now), now,
                                      event.0, event.1)
      ensures bucketId in bucketStore && ReplayFound(security.prims, old(security.replayCache), bucketStore[bucketId], now) ==>
        received == None
    {
      if bucketId !in bucketStore {
        var _ := security.LogSecurityEvent("bucket_not_found", map["bucket_id" := Str(bucketId)], now);
        return None;
      }
      received := ReceiveStored(bucketId, now);
    }

    /** A receive of a stored signal: validate it, then log the violation
        or the success. */
    method ReceiveStored(bucketId: string, now: real) returns (received: Option<Message>)
      requires Valid() && bucketId in bucketStore
      modifies security`nonceStore, security`replayCache, security`auditLog, security`lastAuditHash
      ensures Valid()
      ensures var p := security.prims;
        var signal := bucketStore[bucketId];
        var verdict := Validate(p, security.secretKey, old(security.nonceStore), old(security.replayCache), signal, now);
        var event := ReceiveEvent(bucketId, signal, verdict);
        && received == (if verdict.valid then Some(signal) else None)
        && security.nonceStore == NonceStoreAfterValidation(old(security.nonceStore), signal, now)
        && security.replayCache == ReplayCacheAfterValidation(p, old(security.replayCache), signal, now)
        && security.Audit() == Logged(p, AuditAfterValidation(p, old(security.Audit()), signal, verdict, now), now,
                                      event.0, event.1)
      ensures ReplayFound(security.prims, old(security.replayCache), bucketStore[bucketId], now) ==> received == None
    {
      var signal := bucketStore[bucketId];
      if ReplayFound(security.prims, security.replayCache, signal, now) {
        ReplayRefused(security.prims, security.secretKey, security.nonceStore, security.replayCache, signal, now);
      }
      var verdict := security.ValidateSecureKarmaSignal(signal, now);
      received := RecordReceive(bucketId, signal, verdict, now);
    }

    /** The last step of `receive_from_bucket`: log the violation and return
        nothing, or log the success and return the signal. */
    method RecordReceive(bucketId: string, signal: Message, verdict: Validation, now: real) returns (received: Option<Message>)
      requires Valid()
      modifies security`auditLog, security`lastAuditHash
      ensures Valid()
      ensures received == (if verdict.valid then Some(signal) else None)
      ensures var event := ReceiveEvent(bucketId, signal, verdict);
        security.Audit() == Logged(security.prims, old(security.Audit()), now, event.0, event.1)
    {
      if !verdict.valid {
        var _ := security.LogSecurityEvent("bucket_receive_violation",
          map["bucket_id" := Str(bucketId), "signal_id" := Get(signal, "signal_id"),
              "violations" := StrList(verdict.errors)], now);
        return None;
      }
      var _ := security.LogSecurityEvent("bucket_receive_success",
        map["bucket_id" := Str(bucketId), "signal_id" := Get(signal, "signal_id"),
            "subject_id" := Get(signal, "subject_id")], now);
      return Some(signal);
    }
  }

  /** A fingerprint recorded at `seen` is still found at any reading up to
      one replay window later. */
  lemma RecordedFingerprintIsReplay(p: Primitives, cache: map<string, ReplayEntry>, m: Message, later: real)
    requires Fingerprint(p, m) in cache
    requires cache[Fingerprint(p, m)].firstSeen <= later <= cache[Fingerprint(p, m)].firstSeen + ReplayWindow
    ensures ReplayFound(p, cache, m, later)
  {
    var fp := Fingerprint(p, m);
    assert later - cache[fp].firstSeen <= ReplayWindow;
    assert fp in Purged(cache, later);
  }

  /** A successful send followed by a receive of the same entry inside the
      replay window: the receive is refused as a replay, because the send's
      own validation recorded the fingerprint. `verdict` is the receive's
      validation verdict. */
  method SendThenReceive(c: BucketCommunicator, signalData: Message, now: real, randomHex: string, later: real)
    returns (sent: SendResult, received: Option<Message>, ghost verdict: Validation)
    requires c.Valid()
    requires now <= later <= now + ReplayWindow
    modifies c`bucketStore, c`bucketCounter
    modifies c.security`nonceStore, c.security`replayCache, c.security`auditLog, c.security`lastAuditHash
    ensures c.Valid()
    ensures sent.Sent? ==>
      && sent.bucketId in c.bucketStore
      && received == None
      && !verdict.valid && ReplayError in verdict.errors
  {
    sent := SendRecorded(c, signalData, now, randomHex);
    if sent.Rejected? {
      return sent, None, Validation(false, []);
    }
    var stored := c.bucketStore[sent.bucketId];
    RecordedFingerprintIsReplay(c.security.prims, c.security.replayCache, stored, later);
    received, verdict := ReceiveReplayed(c, sent.bucketId, later);
  }

  /** A send whose signal, once stored, carries every required field and
      has its fingerprint recorded at the send's clock reading. */
  method SendRecorded(c: BucketCommunicator, signalData: Message, now: real, randomHex: string) returns (sent: SendResult)
    requires c.Valid()
    modifies c`bucketStore, c`bucketCounter
    modifies c.security`nonceStore, c.security`replayCache, c.security`auditLog, c.security`lastAuditHash
    ensures c.Valid()
    ensures sent.Sent? ==>
      && sent.bucketId in c.bucketStore
      && HasRequiredFields(c.bucketStore[sent.bucketId])
      && Fingerprint(c.security.prims, c.bucketStore[sent.bucketId]) in c.security.replayCache
      && c.security.replayCache[Fingerprint(c.security.prims, c.bucketStore[sent.bucketId])].firstSeen == now
  {
    var p := c.security.prims;
    SecureFields(p, c.security.secretKey, signalData, NonceFor(p, TruncSeconds(now), randomHex), p.isoFormatUtc(now), DefaultTtl);
    sent := c.SendToBucket(signalData, now, randomHex);
  }

  /** A receive of a stored signal, with every required field, whose
      fingerprint is in the live replay cache: the validation reports a
      replay, nothing is returned, and the logged violations carry the
      replay error. */
  method ReceiveReplayed(c: BucketCommunicator, bucketId: string, later: real)
    returns (received: Option<Message>, ghost verdict: Validation)
    requires c.Valid() && bucketId in c.bucketStore
    requires HasRequiredFields(c.bucketStore[bucketId])
    requires ReplayFound(c.security.prims, c.security.replayCache, c.bucketStore[bucketId], later)
    modifies c.security`nonceStore, c.security`replayCache, c.security`auditLog, c.security`lastAuditHash
    ensures c.Valid()
    ensures verdict == Validate(c.security.prims, c.security.secretKey, old(c.security.nonceStore),
                                old(c.security.replayCache), c.bucketStore[bucketId], later)
    ensures received == None && !verdict.valid && ReplayError in verdict.errors
    ensures var p := c.security.prims;
      var signal := c.bucketStore[bucketId];
      c.security.Audit() == Logged(p, AuditAfterValidation(p, old(c.security.Audit()), signal, verdict, later), later,
                                   "bucket_receive_violation",
                                   map["bucket_id" := Str(bucketId), "signal_id" := Get(signal, "signal_id"),
                                       "violations" := StrList(verdict.errors)])
  {
    var p := c.security.prims;
    verdict := Validate(p, c.security.secretKey, c.security.nonceStore, c.security.replayCache, c.bucketStore[bucketId], later);
    ChecksAreIndependent(p, c.security.secretKey, c.security.nonceStore, c.security.replayCache, c.bucketStore[bucketId], later);
    received := c.ReceiveFromBucket(bucketId, later);
  }
}

=== FILE: core_authorization.dfy ===
/**
 * The Core authorization gate for irreversible actions
 * (utils/core_authorization.py): the action-to-signal table, the gate that
 * turns Core's reply into allowed / denied / timeout and logs each step,
 * and "apply only if authorized".
 *
 * Building and emitting the karma signal is a call into code this model
 * does not contain: its reply is the parameter `emitted`. An action
 * function is represented by what calling it does: it returns a value or
 * raises an error with a message.
 */
module CoreAuthorization {
  import opened Values
  import opened AuthLogging

  /** `IrreversibleActionType`. */
  datatype IrreversibleActionType = DeathEvent | Rebirth | AccessGating | ProgressionLock | Restriction {
    function Name(): string {
      match this
      case DeathEvent => "death_event"
      case Rebirth => "rebirth"
      case AccessGating => "access_gating"
      case ProgressionLock => "progression_lock"
      case Restriction => "restriction"
    }
  }

  /** `get_signal_for_action`: death escalates, rebirth is allowed, and the
      three gating actions restrict. The "nudge" default is never reached,
      since every action type has an entry. */
  function GetSignalForAction(action: IrreversibleActionType): (signal: string)
    ensures signal == "escalate" <==> action == DeathEvent
    ensures signal == "allow" <==> action == Rebirth
    ensures signal == "restrict" <==> action in {AccessGating, ProgressionLock, Restriction}
    ensures signal != "nudge"
  {
    match action
    case DeathEvent => "escalate"
    case Rebirth => "allow"
    case AccessGating => "restrict"
    case ProgressionLock => "restrict"
    case Restriction => "restrict"
  }

  /** What calling an action function does. */
  datatype ActionOutcome = Returned(value: Value) | Raised(error: string)

  // ---------------------------------------------------------------------
  // apply_irreversible_action_if_authorized
  // ---------------------------------------------------------------------

  const NotAuthorizedReason: string := "Action not authorized by Core"

  /** `authorization_result.get("authorized", False)` is truthy. */
  predicate IsAuthorized(authorizationResult: Message) {
    Truthy(GetOr(authorizationResult, "authorized", Bool(false)))
  }

  /** `apply_irreversible_action_if_authorized`: the input dictionary with
      the outcome fields added. */
  function ApplyIrreversibleActionIfAuthorized(authorizationResult: Message, actionFunc: Option<ActionOutcome>): (r: Message)
    ensures forall k :: k in authorizationResult ==> k in r
    ensures forall k :: k in r ==> k in authorizationResult || k in {"action_executed", "execution_result", "error", "reason"}
    ensures forall k :: k in authorizationResult && k !in {"action_executed", "execution_result", "error", "reason"} ==>
              r[k] == authorizationResult[k]
    ensures "action_executed" in r
    ensures r["action_executed"] == Bool(true) <==>
              IsAuthorized(authorizationResult) && (actionFunc.None? || actionFunc.value.Returned?)
    ensures !IsAuthorized(authorizationResult) ==> "reason" in r && r["reason"] == Str(NotAuthorizedReason)
    ensures IsAuthorized(authorizationResult) && actionFunc.Some? && actionFunc.value.Returned? ==>
              "execution_result" in r && r["execution_result"] == actionFunc.value.value
    ensures IsAuthorized(authorizationResult) && actionFunc.Some? && actionFunc.value.Raised? ==>
              "error" in r && r["error"] == Str(actionFunc.value.error)
  {
    if IsAuthorized(authorizationResult) then
      match actionFunc
      case None => authorizationResult["action_executed" := Bool(true)]
      case Some(Returned(v)) => authorizationResult["action_executed" := Bool(true)]["execution_result" := v]
      case Some(Raised(e)) => authorizationResult["action_executed" := Bool(false)]["error" := Str(e)]
    else
      authorizationResult["action_executed" := Bool(false)]["reason" := Str(NotAuthorizedReason)]
  }

  /** Without authorization the action function is never consulted: the
      answer is the same whatever it would do. */
  lemma UnauthorizedIgnoresAction(authorizationResult: Message, f: Option<ActionOutcome>, g: Option<ActionOutcome>)
    requires !IsAuthorized(authorizationResult)
    ensures ApplyIrreversibleActionIfAuthorized(authorizationResult, f) == ApplyIrreversibleActionIfAuthorized(authorizationResult, g)
  {
  }

  // ---------------------------------------------------------------------
  // The gate of authorize_irreversible_action
  // ---------------------------------------------------------------------

  /** Core's answer as the gate reads it from the emitted signal's reply. */
  datatype CoreReply = NoVerdict | Verdict(response: Message, authorized: bool)

  /** A reply decides when it has an "authorization_response" dictionary
      with an "authorized" key; the key's truthiness is the verdict. */
  function CoreReplyOf(emitted: Message): CoreReply {
    if "authorization_response" in emitted && emitted["authorization_response"].Obj?
       && "authorized" in emitted["authorization_response"].fields
    then
      var response := emitted["authorization_response"].fields;
      Verdict(response, Truthy(response["authorized"]))
    else NoVerdict
  }

  /** The result dictionary of the gate, by outcome. */
  datatype GateResult =
    | Allowed(coreResponse: Message, execution: Option<ActionOutcome>)
    | Denied(coreResponse: Message)
    | TimedOut
  {
    predicate Authorized() { Allowed? }
    predicate ActionExecuted() { Allowed? && execution.Some? && execution.value.Returned? }
    predicate AuditLogged() { !Allowed? }
    function Status(): string {
      match this
      case Allowed(_, _) => "allowed"
      case Denied(_) => "denied"
      case TimedOut => "timeout"
    }
  }

  const TimeoutReason: string := "Timeout waiting for Core authorization"

  /** The dictionary `authorize_irreversible_action` returns. */
  function GateMessage(g: GateResult): (m: Message)
    ensures {"status", "authorized", "core_response", "action_executed"} <= m.Keys
    ensures m["status"] == Str(g.Status()) && m["authorized"] == Bool(g.Authorized())
    ensures Truthy(m["action_executed"]) ==> Truthy(m["authorized"])
    ensures "audit_logged" in m <==> g.AuditLogged()
    ensures "fallback_action" in m <==> g.TimedOut?
  {
    match g
    case Allowed(response, execution) =>
      var base := map["status" := Str("allowed"), "authorized" := Bool(true), "core_response" := Obj(response)];
      (match execution
       case None => base["action_executed" := Bool(false)]
       case Some(Returned(v)) => base["action_executed" := Bool(true)]["execution_result" := v]
       case Some(Raised(e)) => base["action_executed" := Bool(false)]["execution_error" := Str(e)])
    case Denied(response) =>
      map["status" := Str("denied"), "authorized" := Bool(false), "core_response" := Obj(response),
          "action_executed" := Bool(false), "audit_logged" := Bool(true)]
    case TimedOut =>
      map["status" := Str("timeout"), "authorized" := Bool(false),
          "core_response" := Obj(map["reason" := Str(TimeoutReason)]),
          "action_executed" := Bool(false), "fallback_action" := Str("no_effect"), "audit_logged" := Bool(true)]
  }

  /** The gate's decision. The reply is read once and never changes, so
      only the first clock check matters: past the timeout nothing is read;
      before it, a verdict decides at once and no verdict waits out the
      timeout. */
  function Gate(reply: CoreReply, firstElapsed: real, timeout: int, actionFunc: Option<ActionOutcome>): GateResult {
    if firstElapsed >= timeout as real || reply.NoVerdict? then TimedOut
    else if reply.authorized then Allowed(reply.response, actionFunc)
    else Denied(reply.response)
  }

  /** The gate allows exactly an in-time ACK, denies exactly an in-time
      DENY, and runs the action only when it allows. */
  lemma GateOutcomes(reply: CoreReply, firstElapsed: real, timeout: int, actionFunc: Option<ActionOutcome>)
    ensures var g := Gate(reply, firstElapsed, timeout, actionFunc);
      && (g.Allowed? <==> firstElapsed < timeout as real && reply.Verdict? && reply.authorized)
      && (g.Denied? <==> firstElapsed < timeout as real && reply.Verdict? && !reply.authorized)
      && (g.ActionExecuted() <==> g.Allowed? && actionFunc.Some? && actionFunc.value.Returned?)
      && (!g.Authorized() ==> !g.ActionExecuted() && g.AuditLogged())
  {
  }

  /** Applying an action to the gate's result executes it only when the
      gate allowed. */
  lemma ApplyAfterGate(g: GateResult, actionFunc: Option<ActionOutcome>)
    ensures ApplyIrreversibleActionIfAuthorized(GateMessage(g), actionFunc)["action_executed"] == Bool(true) ==> g.Authorized()
    ensures !g.Authorized() ==> ApplyIrreversibleActionIfAuthorized(GateMessage(g), actionFunc)
                                  == GateMessage(g)["action_executed" := Bool(false)]["reason" := Str(NotAuthorizedReason)]
  {
    var m := GateMessage(g);
    assert GetOr(m, "authorized", Bool(false)) == Bool(g.Authorized());
  }

  /** The entries the gate appends to the authorization log: the request,
      then the ACK and the execution, or the DENY or TIMEOUT and its discard. */
  function GateLog(eventId: string, timestamp: string, subjectId: string, action: string,
                   context: string, severity: real, reasonCode: string, timeout: int, g: GateResult): seq<AuthEntry>
  {
    var entry := (e: AuthEvent) => AuthEntry(eventId, timestamp, subjectId, action, e);
    [entry(Request(context, severity, reasonCode))] +
    match g
    case Allowed(response, execution) =>
      [entry(Ack(response))] + (if execution.Some? && execution.value.Returned? then [entry(Execution(execution.value.value))] else [])
    case Denied(response) => [entry(Deny(response)), entry(Discard("Core DENY"))]
    case TimedOut => [entry(Timeout(timeout)), entry(Discard("Core TIMEOUT"))]
  }

  /** Every run logs its request first, under one event id throughout; it
      ends with a discard entry exactly when the outcome was audit-logged,
      and logs an execution exactly when the action ran. */
  lemma GateLogShape(eventId: string, timestamp: string, subjectId: string, action: string,
                     context: string, severity: real, reasonCode: string, timeout: int, g: GateResult)
    ensures var log := GateLog(eventId, timestamp, subjectId, action, context, severity, reasonCode, timeout, g);
      && 2 <= |log| <= 3
      && log[0].event.Request?
      && (forall i :: 0 <= i < |log| ==> log[i].eventId == eventId)
      && (g.AuditLogged() <==> log[|log| - 1].event.Discard?)
      && (g.ActionExecuted() <==> exists i :: 0 <= i < |log| && log[i].event.Execution?)
  {
  }

  /** `authorize_irreversible_action`: log the request, read Core's reply,
      and poll until it decides or the timeout passes. `elapsed` holds the
      successive values of `time.time() - start_time` at each check of
      the loop; the last one has passed the timeout. Severity 0.9, reason
      code "IRREVERSIBLE_ACTION" and a 10-second timeout are the defaults;
      the `ttl` argument only feeds the emitted signal, which is given. */
  method AuthorizeIrreversibleAction(logger: AuthorizationLogger, subjectId: string, actionType: IrreversibleActionType,
                                     context: string, severity: real := 0.9, opaqueReasonCode: string := "IRREVERSIBLE_ACTION",
                                     timeout: int := 10,
                                     actionFunc: Option<ActionOutcome>, emitted: Message, elapsed: seq<real>,
                                     localStamp: string, timestamp: string)
    returns (result: GateResult)
    requires |elapsed| > 0 && elapsed[|elapsed| - 1] >= timeout as real
    modifies logger
    ensures result == Gate(CoreReplyOf(emitted), elapsed[0], timeout, actionFunc)
    ensures logger.auditLog == old(logger.auditLog) + GateLog("req_" + localStamp, timestamp, subjectId, actionType.Name(),
                                                              context, severity, opaqueReasonCode, timeout, result)
  {
    var action := actionType.Name();
    var eventId := logger.LogAuthorizationRequest(subjectId, action, context, severity, opaqueReasonCode, localStamp, timestamp);
    ghost var requested := logger.auditLog;
    var i := 0;
    while elapsed[i] < timeout as real
      invariant 0 <= i < |elapsed|
      invariant i > 0 ==> CoreReplyOf(emitted).NoVerdict? && elapsed[0] < timeout as real
      invariant logger.auditLog == requested
      decreases |elapsed| - i
    {
      if "authorization_response" in emitted {
        var response := emitted["authorization_response"];
        if response.Obj? && "authorized" in response.fields {
          if Truthy(response.fields["authorized"]) {
            logger.LogCoreAck(eventId, subjectId, action, response.fields, timestamp);
            if actionFunc.Some? && actionFunc.value.Returned? {
              logger.LogActionExecution(eventId, subjectId, action, actionFunc.value.value, timestamp);
            }
            return Allowed(response.fields, actionFunc);
          } else {
            logger.LogCoreDeny(eventId, subjectId, action, response.fields, timestamp, timestamp);
            return Denied(response.fields);
          }
        }
      }
      i := i + 1;
    }
    logger.LogCoreTimeout(eventId, subjectId, action, timeout, timestamp, timestamp);
    return TimedOut;
  }
}

=== FILE: crypto.dfy ===
/**
 * The library calls the security layer relies on but does not define:
 * canonical JSON (`json.dumps(sort_keys=True, separators=(',', ':'))`),
 * SHA-256 and HMAC-SHA256 hex digests, and the `datetime` parsing and
 * formatting calls. They are carried as uninterpreted functions; the only
 * fact assumed about a digest is its shape (64 hexadecimal characters).
 * A 64-character digest cannot tell every pair of values apart, so the
 * tamper lemmas assume only that it separates the one pair they compare;
 * `Separating` shows that such primitives exist for any pair.
 */
module Crypto {
  import opened Values

  /** A `hexdigest()` of SHA-256 or HMAC-SHA256: always 64 characters. */
  type HexDigest = s: string | |s| == 64
    witness "0000000000000000000000000000000000000000000000000000000000000000"

  datatype Primitives = Primitives(
    /** `json.dumps(v, sort_keys=True, separators=(',', ':'))` */
    canonicalJson: Value -> string,
    /** `hashlib.sha256(text.encode()).hexdigest()` */
    sha256Hex: string -> HexDigest,
    /** `hmac.new(key.encode(), text.encode(), hashlib.sha256).hexdigest()` */
    hmacSha256Hex: (string, string) -> HexDigest,
    /** `datetime.fromisoformat(text)` as seconds since the epoch; None when
        Python raises ValueError, or when the result has no UTC offset (the
        later subtraction from an aware time raises TypeError) */
    fromIsoFormat: string -> Option<real>,
    /** `datetime.now(timezone.utc).isoformat()` for the clock reading */
    isoFormatUtc: real -> string,
    /** `datetime.now().strftime('%Y%m%d_%H%M%S_%f')` for the clock reading */
    localStamp: real -> string
  )

  /** SHA-256 of the canonical JSON form of a value. */
  function Digest(p: Primitives, v: Value): HexDigest {
    p.sha256Hex(p.canonicalJson(v))
  }

  /** HMAC-SHA256 under `key` of the canonical JSON form of a value. */
  function Mac(p: Primitives, key: string, v: Value): HexDigest {
    p.hmacSha256Hex(key, p.canonicalJson(v))
  }

  /** The digest tells `a` from `b` whenever they differ. */
  predicate DigestSeparates(p: Primitives, a: Value, b: Value) {
    a != b ==> Digest(p, a) != Digest(p, b)
  }

  /** The HMAC under `key` tells `a` from `b` whenever they differ. */
  predicate MacSeparates(p: Primitives, key: string, a: Value, b: Value) {
    a != b ==> Mac(p, key, a) != Mac(p, key, b)
  }

  const ZeroDigest: HexDigest := seq(64, _ => '0')
  const OneDigest: HexDigest := seq(64, _ => '1')

  /** Primitives whose digest and HMAC single out `a`: the pair-wise
      separation the tamper lemmas assume can always be met. */
  function Separating(a: Value): (p: Primitives)
    ensures forall b :: DigestSeparates(p, a, b)
    ensures forall key, b :: MacSeparates(p, key, a, b)
  {
    assert ZeroDigest[0] != OneDigest[0];
    Primitives(
      (v: Value) => if v == a then "a" else "b",
      (s: string) => if s == "a" then ZeroDigest else OneDigest,
      (k: string, s: string) => if s == "a" then ZeroDigest else OneDigest,
      (s: string) => None,
      (t: real) => "",
      (t: real) => "")
  }
}

=== FILE: karma_signal.dfy ===
/**
 * The canonical karma signal contract (utils/karma_signal_contract.py):
 * the `KarmaSignal` record that keeps its fields in a dictionary, the
 * fixed table that maps an observed action to a constraint signal, and
 * the global constraint-only flag kept on the sovereign bridge.
 *
 * The clock reading (`datetime.now(...).isoformat()`) and the fresh
 * `uuid4` of a new signal are passed in as strings.
 */
module KarmaSignalContract {
  import opened Values

  /** The nine fields a new signal stores, under the source's keys. */
  function SignalData(subjectId: string, context: string, signal: string, severity: real, reasonCode: string,
                      ttl: int, requiresCoreAck: bool, timestamp: string, signalId: string): (d: Message)
    ensures d.Keys == {"subject_id", "context", "signal", "severity", "reason_code",
                       "ttl", "requires_core_ack", "timestamp", "signal_id"}
  {
    map["subject_id" := Str(subjectId), "context" := Str(context), "signal" := Str(signal),
        "severity" := Num(severity), "reason_code" := Str(reasonCode), "ttl" := Int(ttl),
        "requires_core_ack" := Bool(requiresCoreAck), "timestamp" := Str(timestamp),
        "signal_id" := Str(signalId)]
  }

  class KarmaSignal {
    /** The dictionary `to_dict` hands out; the accessors read it. */
    var data: Message

    /** A new signal with the given fields; severity 0.0, reason code
        "GENERIC", a 300-second ttl and a required Core ACK by default. */
    constructor (subjectId: string, context: string, signal: string, timestamp: string, signalId: string,
                 severity: real := 0.0, reasonCode: string := "GENERIC", ttl: int := 300,
                 requiresCoreAck: bool := true)
      ensures data == SignalData(subjectId, context, signal, severity, reasonCode, ttl, requiresCoreAck,
                                 timestamp, signalId)
    {
      data := SignalData(subjectId, context, signal, severity, reasonCode, ttl, requiresCoreAck,
                         timestamp, signalId);
    }

    /** `create_signal`: the same signal the constructor builds. */
    static method CreateSignal(subjectId: string, context: string, signal: string, timestamp: string,
                               signalId: string, severity: real := 0.0, reasonCode: string := "GENERIC",
                               ttl: int := 300, requiresCoreAck: bool := true) returns (k: KarmaSignal)
      ensures fresh(k)
      ensures k.data == SignalData(subjectId, context, signal, severity, reasonCode, ttl, requiresCoreAck,
                                   timestamp, signalId)
    {
      k := new KarmaSignal(subjectId, context, signal, timestamp, signalId, severity, reasonCode, ttl,
                           requiresCoreAck);
    }

    function ToDict(): (d: Message)
      reads this
      ensures d == data
    {
      data
    }

    function SubjectId(): (v: Value)
      reads this
      ensures "subject_id" in data ==> v == data["subject_id"]
      ensures "subject_id" !in data ==> v == Null
    {
      Get(data, "subject_id")
    }

    function Context(): (v: Value)
      reads this
      ensures "context" in data ==> v == data["context"]
      ensures "context" !in data ==> v == Null
    {
      Get(data, "context")
    }

    function Signal(): (v: Value)
      reads this
      ensures "signal" in data ==> v == data["signal"]
      ensures "signal" !in data ==> v == Null
    {
      Get(data, "signal")
    }

    function Severity(): (v: Value)
      reads this
      ensures "severity" in data ==> v == data["severity"]
      ensures "severity" !in data ==> v == Null
    {
      Get(data, "severity")
    }

    function ReasonCode(): (v: Value)
      reads this
      ensures "reason_code" in data ==> v == data["reason_code"]
      ensures "reason_code" !in data ==> v == Null
    {
      Get(data, "reason_code")
    }

    /** The stored ttl, or 300 seconds when the key is absent. */
    function Ttl(): (v: Value)
      reads this
      ensures "ttl" in data ==> v == data["ttl"]
      ensures "ttl" !in data ==> v == Int(300)
    {
      GetOr(data, "ttl", Int(300))
    }

    /** The stored flag, or true when the key is absent. */
    function RequiresCoreAck(): (v: Value)
      reads this
      ensures "requires_core_ack" in data ==> v == data["requires_core_ack"]
      ensures "requires_core_ack" !in data ==> v == Bool(true)
    {
      GetOr(data, "requires_core_ack", Bool(true))
    }

    function Timestamp(): (v: Value)
      reads this
      ensures "timestamp" in data ==> v == data["timestamp"]
      ensures "timestamp" !in data ==> v == Null
    {
      Get(data, "timestamp")
    }

    function SignalId(): (v: Value)
      reads this
      ensures "signal_id" in data ==> v == data["signal_id"]
      ensures "signal_id" !in data ==> v == Null
    {
      Get(data, "signal_id")
    }
  }

  /** A signal built from the given arguments reads them back through
      every accessor. */
  lemma AccessorsReturnStored(k: KarmaSignal, subjectId: string, context: string, signal: string, severity: real,
                              reasonCode: string, ttl: int, requiresCoreAck: bool, timestamp: string,
                              signalId: string)
    requires k.data == SignalData(subjectId, context, signal, severity, reasonCode, ttl, requiresCoreAck,
                                  timestamp, signalId)
    ensures k.SubjectId() == Str(subjectId) && k.Context() == Str(context) && k.Signal() == Str(signal)
    ensures k.Severity() == Num(severity) && k.ReasonCode() == Str(reasonCode)
    ensures k.Ttl() == Int(ttl) && k.RequiresCoreAck() == Bool(requiresCoreAck)
    ensures k.Timestamp() == Str(timestamp) && k.SignalId() == Str(signalId)
  {
  }

  /** The signal a constraint rule issues for one action. */
  datatype ConstraintRule = ConstraintRule(signal: string, severity: real, reasonCode: string)

  /** The fixed action table of `evaluate_constraint_signal`. */
  function ConstraintTable(): (t: map<string, ConstraintRule>)
    ensures t.Keys == {"cheat", "harassment", "spam", "rudeness", "unsafe_intent", "ignoring_guidance",
                       "politeness", "thoughtful_question", "acknowledging_guidance"}
    ensures forall a :: a in t ==> t[a].signal in {"allow", "nudge", "restrict"}
    ensures forall a :: a in t ==> 0.0 <= t[a].severity <= 1.0
  {
    map["cheat" := ConstraintRule("restrict", 0.8, "CHEAT_DETECTED"),
        "harassment" := ConstraintRule("restrict", 0.9, "HARASSMENT_DETECTED"),
        "spam" := ConstraintRule("nudge", 0.6, "SPAM_DETECTED"),
        "rudeness" := ConstraintRule("nudge", 0.4, "RUDE_BEHAVIOR_DETECTED"),
        "unsafe_intent" := ConstraintRule("restrict", 0.95, "UNSAFE_INTENT_DETECTED"),
        "ignoring_guidance" := ConstraintRule("nudge", 0.3, "GUIDANCE_IGNORED"),
        "politeness" := ConstraintRule("allow", 0.2, "POSITIVE_BEHAVIOR"),
        "thoughtful_question" := ConstraintRule("allow", 0.1, "ENGAGEMENT_POSITIVE"),
        "acknowledging_guidance" := ConstraintRule("allow", 0.1, "POSITIVE_FEEDBACK")]
  }

  /** `evaluate_constraint_signal`: a listed action yields the table's
      signal for the user, with a 300-second ttl and a required Core ACK;
      any other action yields nothing. */
  function EvaluateConstraintSignal(userId: string, action: string, context: string): (r: Option<Message>)
    ensures r.None? <==> action !in ConstraintTable()
    ensures r.Some? ==>
      var rule := ConstraintTable()[action];
      && r.value.Keys == {"subject_id", "context", "signal", "severity", "reason_code", "ttl", "requires_core_ack"}
      && r.value["subject_id"] == Str(userId) && r.value["context"] == Str(context)
      && r.value["signal"] == Str(rule.signal) && r.value["severity"] == Num(rule.severity)
      && r.value["reason_code"] == Str(rule.reasonCode)
      && r.value["ttl"] == Int(300) && r.value["requires_core_ack"] == Bool(true)
  {
    if action in ConstraintTable() then
      var rule := ConstraintTable()[action];
      Some(map["subject_id" := Str(userId), "context" := Str(context), "signal" := Str(rule.signal),
               "severity" := Num(rule.severity), "reason_code" := Str(rule.reasonCode),
               "ttl" := Int(300), "requires_core_ack" := Bool(true)])
    else
      None
  }

  /** A constraint verdict is exactly a canonical signal with default ttl
      and Core ACK, without the timestamp and id a constructed one adds. */
  lemma ConstraintVerdictIsUnstampedSignal(userId: string, action: string, context: string,
                                           timestamp: string, signalId: string)
    requires action in ConstraintTable()
    ensures var rule := ConstraintTable()[action];
      EvaluateConstraintSignal(userId, action, context).value
        == SignalData(userId, context, rule.signal, rule.severity, rule.reasonCode, 300, true,
                      timestamp, signalId) - {"timestamp", "signal_id"}
  {
    var rule := ConstraintTable()[action];
    var r := EvaluateConstraintSignal(userId, action, context).value;
    var s := SignalData(userId, context, rule.signal, rule.severity, rule.reasonCode, 300, true,
                        timestamp, signalId) - {"timestamp", "signal_id"};
    assert r.Keys == s.Keys;
    forall k | k in r
      ensures r[k] == s[k]
    {
    }
  }

  /** The only state of the sovereign bridge this model needs: the
      constraint-only flag, absent until first set. */
  class SovereignBridge {
    var constraintOnlyMode: Option<bool>

    constructor ()
      ensures constraintOnlyMode == None
    {
      constraintOnlyMode := None;
    }
  }

  /** `is_constraint_only_mode`: the flag, false while it was never set. */
  function IsConstraintOnlyMode(bridge: SovereignBridge): (on: bool)
    reads bridge
    ensures on <==> bridge.constraintOnlyMode == Some(true)
  {
    bridge.constraintOnlyMode.GetOr(false)
  }

  /** `enforce_constraint_only_mode`: set the flag and report success with
      the new value and the clock reading. */
  method EnforceConstraintOnlyMode(bridge: SovereignBridge, timestamp: string, enabled: bool := true)
    returns (status: Message)
    modifies bridge
    ensures IsConstraintOnlyMode(bridge) == enabled
    ensures bridge.constraintOnlyMode == Some(enabled)
    ensures status == map["status" := Str("success"), "constraint_only_mode" := Bool(enabled),
                          "timestamp" := Str(timestamp)]
  {
    bridge.constraintOnlyMode := Some(enabled);
    status := map["status" := Str("success"), "constraint_only_mode" := Bool(enabled),
                  "timestamp" := Str(timestamp)];
  }
}

=== FILE: security_checks.dfy ===
/**
 * The pure decisions of `SecurityManager` (utils/security_hardening.py):
 * nonce expiry, the TTL window, HMAC signing, the replay fingerprint and
 * replay-cache purge, the securing of a signal and the full validation
 * verdict. The class in module SecurityHardening performs these steps on
 * its own state; the functions here say what each step computes, and the
 * lemmas here state what the source promises about them.
 */
module SecurityChecks {
  import opened Values
  import opened Crypto

  /** `nonce_ttl`: a nonce is valid for 300 seconds. */
  const NonceTtl: int := 300
  /** `replay_window`: fingerprints are remembered for an hour. */
  const ReplayWindow: real := 3600.0
  /** Default `ttl_seconds` of `create_secure_karma_signal` and `is_valid_ttl`. */
  const DefaultTtl: int := 300
  /** The `security_version` tag of every secured signal. */
  const SecurityVersion: string := "2.0"
  /** Fields left out of the replay fingerprint. */
  const VolatileFields: set<string> := {"timestamp", "nonce", "signature"}
  /** Fields `validate_secure_karma_signal` demands, in the order it checks them. */
  const RequiredFields: seq<string> := ["nonce", "timestamp", "ttl", "signature", "security_version"]

  const NonceError: string := "Invalid or expired nonce"
  const TtlError: string := "Message expired (TTL violation)"
  const ReplayError: string := "Replay attack detected"
  const BadSignatureError: string := "Invalid signature"
  const NoSignatureError: string := "Missing signature"
  const MissingFieldPrefix: string := "Missing required field: "

  /** `int(t)` of a clock reading: truncation toward zero. */
  function TruncSeconds(t: real): (s: int)
    ensures t >= 0.0 ==> s as real <= t < s as real + 1.0
    ensures t < 0.0 ==> s as real - 1.0 < t <= s as real
  {
    if t >= 0.0 then t.Floor else -((-t).Floor)
  }

  // ---------------------------------------------------------------------
  // Nonce registry
  // ---------------------------------------------------------------------

  /** The nonce `generate_secure_nonce` derives from the second it runs in
      and the hex form of its 16 random bytes: the first 32 characters of
      SHA-256 of "<second>:<random hex>". */
  function NonceFor(p: Primitives, second: int, randomHex: string): (nonce: string)
    ensures |nonce| == 32
  {
    p.sha256Hex(IntString(second) + ":" + randomHex)[..32]
  }

  /** True when `now - issued` exceeds the nonce lifetime. */
  predicate NonceExpired(issued: int, now: real) {
    TruncSeconds(now) - issued > NonceTtl
  }

  /** The answer of `validate_nonce`. */
  predicate NonceValid(store: map<string, int>, nonce: string, now: real) {
    nonce != "" && nonce in store && !NonceExpired(store[nonce], now)
  }

  /** The nonce store after `validate_nonce`: only an expired nonce is removed. */
  function NonceStoreAfter(store: map<string, int>, nonce: string, now: real): map<string, int> {
    if nonce != "" && nonce in store && NonceExpired(store[nonce], now) then store - {nonce} else store
  }

  /** A freshly registered nonce validates at once, keeps validating (it is
      never consumed) until its lifetime has passed, and once that has passed
      it is refused and dropped from the store. */
  lemma FreshNonceLifetime(store: map<string, int>, nonce: string, issuedAt: real, later: real)
    requires nonce != ""
    ensures var s := store[nonce := TruncSeconds(issuedAt)];
      && NonceValid(s, nonce, issuedAt)
      && NonceStoreAfter(s, nonce, issuedAt) == s
      && (TruncSeconds(later) - TruncSeconds(issuedAt) <= NonceTtl ==>
            NonceValid(s, nonce, later) && NonceStoreAfter(s, nonce, later) == s)
      && (TruncSeconds(later) - TruncSeconds(issuedAt) > NonceTtl ==>
            !NonceValid(s, nonce, later) && nonce !in NonceStoreAfter(s, nonce, later))
  {
  }

  /** Validating a valid nonce twice gives the same answer: success does not consume it. */
  lemma NonceNotConsumed(store: map<string, int>, nonce: string, now: real)
    requires NonceValid(store, nonce, now)
    ensures NonceStoreAfter(store, nonce, now) == store
    ensures NonceValid(NonceStoreAfter(store, nonce, now), nonce, now)
  {
  }

  // ---------------------------------------------------------------------
  // TTL window
  // ---------------------------------------------------------------------

  /** `is_valid_ttl`'s parse: a trailing "Z" is read as "+00:00". */
  function ParseTimestamp(p: Primitives, timestamp: string): Option<real> {
    if |timestamp| > 0 && timestamp[|timestamp| - 1] == 'Z' then
      p.fromIsoFormat(timestamp[..|timestamp| - 1] + "+00:00")
    else
      p.fromIsoFormat(timestamp)
  }

  /** How Python compares a `ttl` value with a float: ints, floats and
      booleans are numbers; anything else raises TypeError. */
  function NumericValue(v: Value): Option<real> {
    match v
    case Int(i) => Some(i as real)
    case Num(r) => Some(r)
    case Bool(b) => Some(if b then 1.0 else 0.0)
    case _ => None
  }

  /** `is_valid_ttl(timestamp, ttl)` at clock reading `now`: the age of the
      message must lie in [0, ttl]; a parse failure or a non-numeric ttl is
      caught and answers false. */
  predicate IsValidTtl(p: Primitives, timestamp: string, ttl: Value, now: real) {
    match ParseTimestamp(p, timestamp)
    case None => false
    case Some(sent) =>
      0.0 <= now - sent &&
      match NumericValue(ttl)
      case None => false
      case Some(limit) => now - sent <= limit
  }

  /** The TTL window is closed at both ends: age exactly `ttl` passes, any
      larger age fails, a timestamp in the future fails, and an unparseable
      timestamp fails. */
  lemma TtlWindow(p: Primitives, timestamp: string, ttl: int, now: real)
    ensures ParseTimestamp(p, timestamp).None? ==> !IsValidTtl(p, timestamp, Int(ttl), now)
    ensures ParseTimestamp(p, timestamp).Some? ==>
      var sent := ParseTimestamp(p, timestamp).value;
      IsValidTtl(p, timestamp, Int(ttl), now) <==> sent <= now <= sent + ttl as real
  {
  }

  /** A timestamp ending in "Z" is judged exactly as its "+00:00" spelling. */
  lemma ZuluIsUtc(p: Primitives, stem: string, ttl: Value, now: real)
    ensures IsValidTtl(p, stem + "Z", ttl, now) == IsValidTtl(p, stem + "+00:00", ttl, now)
  {
    var z := stem + "Z";
    assert z[..|z| - 1] == stem;
    var u := stem + "+00:00";
    assert u[|u| - 1] == '0';
  }

  // ---------------------------------------------------------------------
  // Signatures
  // ---------------------------------------------------------------------

  /** `sign_message`: HMAC-SHA256 of the canonical JSON of the whole mapping. */
  function SignMessage(p: Primitives, key: string, m: Message): HexDigest {
    Mac(p, key, Obj(m))
  }

  /** `verify_signature`: recompute and compare. */
  predicate VerifySignature(p: Primitives, key: string, m: Message, signature: string) {
    SignMessage(p, key, m) == signature
  }

  /** Sign then verify succeeds; a signature made over `m` fails for any
      other mapping `m'` that the HMAC tells apart from `m`. */
  lemma SignatureTamperEvident(p: Primitives, key: string, m: Message, m': Message)
    ensures VerifySignature(p, key, m, SignMessage(p, key, m))
    ensures m' != m && MacSeparates(p, key, Obj(m), Obj(m')) ==> !VerifySignature(p, key, m', SignMessage(p, key, m))
  {
    if m' != m {
      assert Obj(m) != Obj(m');
    }
  }

  // ---------------------------------------------------------------------
  // Replay detection
  // ---------------------------------------------------------------------

  /** Two messages that agree on every field outside `fields`. */
  ghost predicate AgreeOutside(a: Message, b: Message, fields: set<string>) {
    forall k :: k !in fields ==> (k in a <==> k in b) && (k in a ==> a[k] == b[k])
  }

  /** `detect_replay_attack`'s fingerprint: SHA-256 of the canonical JSON of
      the message without timestamp, nonce and signature. */
  function Fingerprint(p: Primitives, m: Message): HexDigest {
    Digest(p, Obj(m - VolatileFields))
  }

  /** Messages that differ only in timestamp, nonce or signature share a
      fingerprint; when the digest tells their non-volatile parts apart,
      sharing a fingerprint means exactly that. */
  lemma FingerprintIgnoresVolatile(p: Primitives, a: Message, b: Message)
    ensures AgreeOutside(a, b, VolatileFields) ==> Fingerprint(p, a) == Fingerprint(p, b)
    ensures var rest, rest' := Obj(a - VolatileFields), Obj(b - VolatileFields);
      DigestSeparates(p, rest, rest') && Fingerprint(p, a) == Fingerprint(p, b) ==> AgreeOutside(a, b, VolatileFields)
  {
    if AgreeOutside(a, b, VolatileFields) {
      assert a - VolatileFields == b - VolatileFields;
    }
    if DigestSeparates(p, Obj(a - VolatileFields), Obj(b - VolatileFields)) && Fingerprint(p, a) == Fingerprint(p, b) {
      assert Obj(a - VolatileFields) == Obj(b - VolatileFields);
      forall k | k !in VolatileFields
        ensures (k in a <==> k in b) && (k in a ==> a[k] == b[k])
      {
        assert k in a <==> k in a - VolatileFields;
        assert k in b <==> k in b - VolatileFields;
      }
    }
  }

  /** What the replay cache remembers of a fingerprint. */
  datatype ReplayEntry = ReplayEntry(firstSeen: real, signalId: Value)

  /** The cache after the purge of entries older than the replay window. */
  function Purged(cache: map<string, ReplayEntry>, now: real): (live: map<string, ReplayEntry>)
    ensures live.Keys <= cache.Keys
    ensures forall k :: k in live ==> live[k] == cache[k] && now - cache[k].firstSeen <= ReplayWindow
    ensures forall k :: k in cache && now - cache[k].firstSeen <= ReplayWindow ==> k in live
  {
    map k | k in cache && now - cache[k].firstSeen <= ReplayWindow :: cache[k]
  }

  /** The answer of `detect_replay_attack`. */
  predicate ReplayFound(p: Primitives, cache: map<string, ReplayEntry>, m: Message, now: real) {
    Fingerprint(p, m) in Purged(cache, now)
  }

  /** The cache after `detect_replay_attack`: purged, and on a miss the
      fingerprint recorded with the clock reading and the signal id. */
  function ReplayCacheAfter(p: Primitives, cache: map<string, ReplayEntry>, m: Message, now: real): map<string, ReplayEntry> {
    var live := Purged(cache, now);
    var fp := Fingerprint(p, m);
    if fp in live then live else live[fp := ReplayEntry(now, GetOr(m, "signal_id", Str("unknown")))]
  }

  /** Once a message has been seen (a miss that recorded it), every message with the same content
      outside the volatile fields is reported as a replay for the whole
      replay window, however its nonce, timestamp and signature differ. */
  lemma RepeatIsReplay(p: Primitives, cache: map<string, ReplayEntry>, a: Message, b: Message, seen: real, later: real)
    requires !ReplayFound(p, cache, a, seen)
    requires AgreeOutside(a, b, VolatileFields)
    requires seen <= later <= seen + ReplayWindow
    ensures ReplayFound(p, ReplayCacheAfter(p, cache, a, seen), b, later)
  {
    FingerprintIgnoresVolatile(p, a, b);
    var after := ReplayCacheAfter(p, cache, a, seen);
    var fp := Fingerprint(p, a);
    assert fp in after && seen <= after[fp].firstSeen;
  }

  // ---------------------------------------------------------------------
  // Securing a signal
  // ---------------------------------------------------------------------

  /** `create_secure_karma_signal` before the signature is attached. */
  function Unsigned(data: Message, nonce: string, stamp: string, ttl: int): Message {
    var withNonce := data["nonce" := Str(nonce)];
    var withTime := if "timestamp" in withNonce then withNonce else withNonce["timestamp" := Str(stamp)];
    withTime["ttl" := Int(ttl)]["security_version" := Str(SecurityVersion)]
  }

  /** The secured signal: the unsigned form plus its HMAC under "signature". */
  function Secure(p: Primitives, key: string, data: Message, nonce: string, stamp: string, ttl: int): Message {
    var u := Unsigned(data, nonce, stamp, ttl);
    u["signature" := Str(SignMessage(p, key, u))]
  }

  /** The secured signal carries the new nonce, keeps a caller-supplied
      timestamp (adding the clock's only when there is none), carries the
      given ttl and version "2.0", is signed, and keeps every other field of
      the input unchanged. */
  lemma SecureFields(p: Primitives, key: string, data: Message, nonce: string, stamp: string, ttl: int)
    ensures var s := Secure(p, key, data, nonce, stamp, ttl);
      && (forall f :: f in RequiredFields ==> f in s)
      && s["nonce"] == Str(nonce)
      && s["timestamp"] == (if "timestamp" in data then data["timestamp"] else Str(stamp))
      && s["ttl"] == Int(ttl)
      && s["security_version"] == Str(SecurityVersion)
      && s.Keys == data.Keys + {"nonce", "timestamp", "ttl", "security_version", "signature"}
      && (forall k :: k in data && k !in {"nonce", "timestamp", "ttl", "security_version", "signature"} ==> s[k] == data[k])
  {
  }

  /** Signature check of `validate_secure_karma_signal`: the "signature"
      value is popped from a copy; a falsy one is reported missing,
      otherwise it must equal the HMAC of the rest. */
  function SignatureErrors(p: Primitives, key: string, m: Message): seq<string> {
    var sig := Get(m, "signature");
    if !Truthy(sig) then [NoSignatureError]
    else if sig.Str? && VerifySignature(p, key, m - {"signature"}, sig.s) then []
    else [BadSignatureError]
  }

  /** The signal `create_secure_karma_signal` returns passes the signature
      check whenever the caller's data carried no "signature" field. */
  lemma SecuredSignatureVerifies(p: Primitives, key: string, data: Message, nonce: string, stamp: string, ttl: int)
    requires "signature" !in data
    ensures SignatureErrors(p, key, Secure(p, key, data, nonce, stamp, ttl)) == []
  {
    var u := Unsigned(data, nonce, stamp, ttl);
    var s := Secure(p, key, data, nonce, stamp, ttl);
    assert "signature" !in u;
    assert s - {"signature"} == u;
  }

  /** A caller-supplied "signature" field is signed over and then replaced:
      the verifier recomputes the HMAC over a different mapping (the
      secured signal without any signature), so the secured signal passes
      its own signature check only if the HMAC confuses the two, and fails
      it whenever the HMAC tells them apart. */
  lemma PresignedDataFailsVerification(p: Primitives, key: string, data: Message, nonce: string, stamp: string, ttl: int)
    requires "signature" in data
    ensures var u := Unsigned(data, nonce, stamp, ttl);
      var checked := Secure(p, key, data, nonce, stamp, ttl) - {"signature"};
      && checked != u
      && SignatureErrors(p, key, Secure(p, key, data, nonce, stamp, ttl))
           == if Mac(p, key, Obj(checked)) == Mac(p, key, Obj(u)) then [] else [BadSignatureError]
    ensures var s := Secure(p, key, data, nonce, stamp, ttl);
      MacSeparates(p, key, Obj(s - {"signature"}), Obj(Unsigned(data, nonce, stamp, ttl))) ==> SignatureErrors(p, key, s) == [BadSignatureError]
  {
    var u := Unsigned(data, nonce, stamp, ttl);
    var s := Secure(p, key, data, nonce, stamp, ttl);
    assert "signature" in u && "signature" !in s - {"signature"};
    assert Obj(s - {"signature"}) != Obj(u);
  }

  // ---------------------------------------------------------------------
  // The validation verdict
  // ---------------------------------------------------------------------

  /** One "Missing required field" error per absent field, in field order:
      every error names a listed field that is absent, and there are as
      many errors as positions of `fields` holding an absent field. */
  function MissingFieldErrors(m: Message, fields: seq<string>): (errors: seq<string>)
    ensures |errors| <= |fields|
    ensures errors == [] <==> forall f :: f in fields ==> f in m
    ensures forall e :: e in errors ==> exists f :: f in fields && f !in m && e == MissingFieldPrefix + f
    ensures |errors| == |AbsentPositions(m, fields)|
  {
    if fields == [] then
      assert AbsentPositions(m, fields) == {};
      []
    else
      var last := fields[|fields| - 1];
      AbsentPositionsSnoc(m, fields);
      MissingFieldErrors(m, fields[..|fields| - 1])
        + (if last in m then [] else [MissingFieldPrefix + last])
  }

  /** The positions of `fields` whose field is absent from `m`. */
  function AbsentPositions(m: Message, fields: seq<string>): set<int> {
    set i | 0 <= i < |fields| && fields[i] !in m
  }

  /** The absent positions of `fields` are those of its prefix without the
      last field, plus the last position when that field is absent. */
  lemma AbsentPositionsSnoc(m: Message, fields: seq<string>)
    requires fields != []
    ensures var n := |fields| - 1;
      AbsentPositions(m, fields)
        == AbsentPositions(m, fields[..n]) + (if fields[n] in m then {} else {n})
  {
  }

  /** The nonce check applied to the value of the "nonce" field: anything
      but a string is falsy or absent from the store. */
  predicate NonceFieldValid(store: map<string, int>, v: Value, now: real) {
    v.Str? && NonceValid(store, v.s, now)
  }

  function NonceStoreAfterField(store: map<string, int>, v: Value, now: real): map<string, int> {
    if v.Str? then NonceStoreAfter(store, v.s, now) else store
  }

  /** The TTL check applied to the "timestamp" and "ttl" fields. */
  predicate TtlFieldValid(p: Primitives, ts: Value, ttl: Value, now: real) {
    ts.Str? && IsValidTtl(p, ts.s, ttl, now)
  }

  /** The four independent checks, run when every required field is present. */
  function CheckErrors(p: Primitives, key: string, store: map<string, int>, cache: map<string, ReplayEntry>,
                       m: Message, now: real): seq<string>
  {
    (if NonceFieldValid(store, Get(m, "nonce"), now) then [] else [NonceError])
    + (if TtlFieldValid(p, Get(m, "timestamp"), Get(m, "ttl"), now) then [] else [TtlError])
    + (if ReplayFound(p, cache, m, now) then [ReplayError] else [])
    + SignatureErrors(p, key, m)
  }

  /** Every field of `RequiredFields` is present. */
  predicate HasRequiredFields(m: Message) {
    forall f :: f in RequiredFields ==> f in m
  }

  /** The `{'valid', 'errors'}` result of `validate_secure_karma_signal`. */
  datatype Validation = Validation(valid: bool, errors: seq<string>)

  /** The verdict `validate_secure_karma_signal` returns for a signal given
      the nonce store and replay cache it starts from. */
  function Validate(p: Primitives, key: string, store: map<string, int>, cache: map<string, ReplayEntry>,
                    m: Message, now: real): (r: Validation)
    ensures r.valid <==> r.errors == []
  {
    if !HasRequiredFields(m) then Validation(false, MissingFieldErrors(m, RequiredFields))
    else
      var errors := CheckErrors(p, key, store, cache, m, now);
      Validation(errors == [], errors)
  }

  /** Every required field present: the number of missing-field errors. */
  lemma MissingFieldsShortCircuit(p: Primitives, key: string, store: map<string, int>, cache: map<string, ReplayEntry>,
                                  m: Message, now: real, f: string)
    requires f in RequiredFields && f !in m
    ensures var r := Validate(p, key, store, cache, m, now);
      !r.valid && r.errors == MissingFieldErrors(m, RequiredFields) && MissingFieldPrefix + f in r.errors
  {
    MissingFieldListed(m, RequiredFields, f);
  }

  lemma {:induction false} MissingFieldListed(m: Message, fields: seq<string>, f: string)
    requires f in fields && f !in m
    ensures MissingFieldPrefix + f in MissingFieldErrors(m, fields)
  {
    var last := fields[|fields| - 1];
    if last != f {
      assert f in fields[..|fields| - 1] by {
        var i :| 0 <= i < |fields| && fields[i] == f;
        assert i < |fields| - 1;
        assert fields[..|fields| - 1][i] == f;
      }
      MissingFieldListed(m, fields[..|fields| - 1], f);
    }
  }

  /** A signal found in the replay cache is refused. */
  lemma ReplayRefused(p: Primitives, key: string, store: map<string, int>, cache: map<string, ReplayEntry>,
                      m: Message, now: real)
    requires ReplayFound(p, cache, m, now)
    ensures !Validate(p, key, store, cache, m, now).valid
  {
    if HasRequiredFields(m) {
      ChecksAreIndependent(p, key, store, cache, m, now);
    }
  }

  /** A signal that passes validation leaves its fingerprint in the replay
      cache, stamped with the validation's clock reading. */
  lemma AcceptedIsRecordedIfValid(p: Primitives, key: string, store: map<string, int>, cache: map<string, ReplayEntry>,
                                  m: Message, now: real)
    ensures Validate(p, key, store, cache, m, now).valid ==>
      && Fingerprint(p, m) in ReplayCacheAfter(p, cache, m, now)
      && ReplayCacheAfter(p, cache, m, now)[Fingerprint(p, m)].firstSeen == now
  {
    if HasRequiredFields(m) {
      ChecksAreIndependent(p, key, store, cache, m, now);
    }
  }

  /** With every required field present, each check reports its own error
      whatever the others decide, and the signal is valid exactly when all
      four checks pass. */
  lemma ChecksAreIndependent(p: Primitives, key: string, store: map<string, int>, cache: map<string, ReplayEntry>,
                             m: Message, now: real)
    requires HasRequiredFields(m)
    ensures var r := Validate(p, key, store, cache, m, now);
      && (NonceError in r.errors <==> !NonceFieldValid(store, m["nonce"], now))
      && (TtlError in r.errors <==> !TtlFieldValid(p, m["timestamp"], m["ttl"], now))
      && (ReplayError in r.errors <==> ReplayFound(p, cache, m, now))
      && (r.valid <==> NonceFieldValid(store, m["nonce"], now) && TtlFieldValid(p, m["timestamp"], m["ttl"], now)
                       && !ReplayFound(p, cache, m, now) && SignatureErrors(p, key, m) == [])
  {
    assert MissingFieldErrors(m, RequiredFields) == [];
    var sig := SignatureErrors(p, key, m);
    assert NonceError !in sig && TtlError !in sig && ReplayError !in sig;
  }
}

=== FILE: security_hardening.dfy ===
/**
 * `SecurityManager` (utils/security_hardening.py): the object that owns
 * the nonce store, the replay cache and the hash-chained audit log, and
 * updates them in place. Each method is proved against the functions of
 * SecurityChecks and AuditChain; `Valid()` is the audit-chain link
 * invariant that every method keeps.
 *
 * The clock, the random bytes of a nonce and the library primitives are
 * inputs: `now` is the reading of `time.time()` / `datetime.now()` for
 * the call, `randomHex` the hex form of `secrets.token_bytes(16)`.
 */
module SecurityHardening {
  import opened Values
  import opened Crypto
  import opened SecurityChecks
  import opened AuditChain

  /** `get_security_summary`'s record. */
  datatype SecuritySummary = SecuritySummary(
    nonceCount: nat,
    replayCacheSize: nat,
    auditLogSize: nat,
    chainIntegrity: bool,
    lastAuditHash: string)

  /** The details logged for 'signal_created'. */
  function CreatedDetails(secured: Message, nonce: string): Message {
    map["signal_id" := Get(secured, "signal_id"),
        "subject_id" := Get(secured, "subject_id"),
        "nonce" := Str((if |nonce| < 8 then nonce else nonce[..8]) + "...")]
  }

  /** The details logged for 'signal_validated': at most three errors. */
  function ValidatedDetails(signal: Message, r: Validation): Message {
    map["signal_id" := Get(signal, "signal_id"),
        "valid" := Bool(r.valid),
        "error_count" := Int(|r.errors|),
        "errors" := StrList(if |r.errors| < 3 then r.errors else r.errors[..3])]
  }

  /** The nonce store after `validate_secure_karma_signal`: untouched when
      a required field is missing. */
  function NonceStoreAfterValidation(store: map<string, int>, m: Message, now: real): map<string, int> {
    if HasRequiredFields(m) then NonceStoreAfterField(store, m["nonce"], now) else store
  }

  /** The replay cache after `validate_secure_karma_signal`. */
  function ReplayCacheAfterValidation(p: Primitives, cache: map<string, ReplayEntry>, m: Message, now: real)
    : map<string, ReplayEntry>
  {
    if HasRequiredFields(m) then ReplayCacheAfter(p, cache, m, now) else cache
  }

  /** The audit state after `validate_secure_karma_signal` returned `r`:
      'signal_validated' is logged unless a required field was missing. */
  function AuditAfterValidation(p: Primitives, st: AuditState, m: Message, r: Validation, now: real): AuditState {
    if HasRequiredFields(m) then Logged(p, st, now, "signal_validated", ValidatedDetails(m, r)) else st
  }

  class SecurityManager {
    const prims: Primitives
    const secretKey: string
    /** nonce -> the second it was issued in */
    var nonceStore: map<string, int>
    /** fingerprint -> when it was first seen, and the signal id */
    var replayCache: map<string, ReplayEntry>
    var auditLog: seq<AuditEntry>
    var lastAuditHash: string

    ghost predicate Valid()
      reads this
    {
      ChainLinked(prims, auditLog, lastAuditHash)
    }

    /** The audit log and its last hash. */
    function Audit(): AuditState
      reads this
    {
      AuditState(auditLog, lastAuditHash)
    }

    /** `__init__` followed by `_initialize_audit_chain`. */
    constructor (prims: Primitives, secretKey: string, now: real)
      ensures Valid()
      ensures this.prims == prims && this.secretKey == secretKey
      ensures nonceStore == map[] && replayCache == map[]
      ensures auditLog == [Genesis(prims.isoFormatUtc(now))] && lastAuditHash == GenesisHash
    {
      this.prims := prims;
      this.secretKey := secretKey;
      nonceStore := map[];
      replayCache := map[];
      auditLog := [Genesis(prims.isoFormatUtc(now))];
      lastAuditHash := GenesisHash;
      GenesisLinked(prims, prims.isoFormatUtc(now));
    }

    /** `generate_secure_nonce`: derive a nonce and record its issue second. */
    method GenerateSecureNonce(now: real, randomHex: string) returns (nonce: string)
      modifies this`nonceStore
      ensures nonce == NonceFor(prims, TruncSeconds(now), randomHex) && |nonce| == 32
      ensures nonceStore == old(nonceStore)[nonce := TruncSeconds(now)]
      ensures NonceValid(nonceStore, nonce, now)
    {
      var second := TruncSeconds(now);
      nonce := NonceFor(prims, second, randomHex);
      nonceStore := nonceStore[nonce := second];
    }

    /** `validate_nonce`: an empty or unknown nonce is refused; an expired one
        is refused and deleted; any other is accepted and left in place. */
    method ValidateNonce(nonce: string, now: real) returns (ok: bool)
      modifies this`nonceStore
      ensures ok == NonceValid(old(nonceStore), nonce, now)
      ensures nonceStore == NonceStoreAfter(old(nonceStore), nonce, now)
      ensures nonce == "" || nonce !in old(nonceStore) ==> !ok && nonceStore == old(nonceStore)
      ensures nonce != "" && nonce in old(nonceStore) && NonceExpired(old(nonceStore)[nonce], now) ==>
                !ok && nonceStore == old(nonceStore) - {nonce}
      ensures ok ==> nonceStore == old(nonceStore)
    {
      if nonce == "" || nonce !in nonceStore {
        return false;
      }
      var issued := nonceStore[nonce];
      var current := TruncSeconds(now);
      if current - issued > NonceTtl {
        nonceStore := nonceStore - {nonce};
        return false;
      }
      return true;
    }

    /** `detect_replay_attack`: purge entries older than the window, then
        report a hit, or record the fingerprint and report a miss. */
    method DetectReplayAttack(message: Message, now: real) returns (replay: bool)
      modifies this`replayCache
      ensures replay == ReplayFound(prims, old(replayCache), message, now)
      ensures replayCache == ReplayCacheAfter(prims, old(replayCache), message, now)
      ensures replay ==> replayCache == Purged(old(replayCache), now)
    {
      var fp := Fingerprint(prims, message);
      var expired := set k | k in replayCache && now - replayCache[k].firstSeen > ReplayWindow;
      var pending := expired;
      while pending != {}
        invariant pending <= expired
        invariant replayCache == old(replayCache) - (expired - pending)
        decreases pending
      {
        var k :| k in pending;
        replayCache := replayCache - {k};
        pending := pending - {k};
      }
      assert replayCache == Purged(old(replayCache), now);
      if fp in replayCache {
        // Both branches of the source's hit case (recent same-id resend or
        // not) report a replay.
        return true;
      }
      replayCache := replayCache[fp := ReplayEntry(now, GetOr(message, "signal_id", Str("unknown")))];
      return false;
    }

    /** `log_security_event`: append an entry linked to the last hash, make
        its hash the last hash, and trim to the newest 1000 entries. */
    method LogSecurityEvent(eventType: string, details: Message, now: real) returns (eventId: string)
      requires Valid()
      modifies this`auditLog, this`lastAuditHash
      ensures Valid()
      ensures Audit() == Logged(prims, old(Audit()), now, eventType, details)
      ensures eventId == SecEventId(prims, now)
      ensures auditLog[|auditLog| - 1].previousHash == Some(old(lastAuditHash))
    {
      var e := SecEntry(prims, lastAuditHash, now, eventType, details);
      AppendKeepsChainLinked(prims, auditLog, lastAuditHash, SecEventId(prims, now), prims.isoFormatUtc(now), eventType, details);
      lastAuditHash := e.entryHash.value;
      auditLog := auditLog + [e];
      if |auditLog| > AuditRetention {
        auditLog := auditLog[|auditLog| - AuditRetention..];
      }
      eventId := e.eventId;
    }

    /** `create_secure_karma_signal`: register a fresh nonce, attach it, the
        timestamp (unless the caller gave one), the ttl, the version and the
        signature, and log 'signal_created'. */
    method CreateSecureKarmaSignal(signalData: Message, now: real, randomHex: string, ttlSeconds: int := DefaultTtl)
      returns (secured: Message)
      requires Valid()
      modifies this`nonceStore, this`auditLog, this`lastAuditHash
      ensures Valid()
      ensures var nonce := NonceFor(prims, TruncSeconds(now), randomHex);
        && secured == Secure(prims, secretKey, signalData, nonce, prims.isoFormatUtc(now), ttlSeconds)
        && nonceStore == old(nonceStore)[nonce := TruncSeconds(now)]
        && Audit() == Logged(prims, old(Audit()), now, "signal_created", CreatedDetails(secured, nonce))
    {
      var nonce := GenerateSecureNonce(now, randomHex);
      // The copy with nonce, timestamp, ttl, version and signature added.
      secured := Secure(prims, secretKey, signalData, nonce, prims.isoFormatUtc(now), ttlSeconds);
      var _ := LogSecurityEvent("signal_created", CreatedDetails(secured, nonce), now);
    }

    /** The required-field loop of `validate_secure_karma_signal`: one
        error per absent field, in the order the fields are listed. */
    method MissingRequiredFields(signal: Message) returns (errors: seq<string>)
      ensures errors == MissingFieldErrors(signal, RequiredFields)
      ensures errors == [] <==> HasRequiredFields(signal)
    {
      errors := [];
      for i := 0 to |RequiredFields|
        invariant errors == MissingFieldErrors(signal, RequiredFields[..i])
      {
        assert RequiredFields[..i + 1][..i] == RequiredFields[..i];
        if RequiredFields[i] !in signal {
          errors := errors + [MissingFieldPrefix + RequiredFields[i]];
        }
      }
      assert RequiredFields[..|RequiredFields|] == RequiredFields;
    }

    /** The nonce, TTL, replay and signature checks of
        `validate_secure_karma_signal`, run once every required field is
        present; each failed check adds its own error. */
    method RunChecks(signal: Message, now: real) returns (errors: seq<string>)
      requires HasRequiredFields(signal)
      modifies this`nonceStore, this`replayCache
      ensures errors == CheckErrors(prims, secretKey, old(nonceStore), old(replayCache), signal, now)
      ensures nonceStore == NonceStoreAfterField(old(nonceStore), signal["nonce"], now)
      ensures replayCache == ReplayCacheAfter(prims, old(replayCache), signal, now)
    {
      var nonceOk := false;
      if signal["nonce"].Str? {
        nonceOk := ValidateNonce(signal["nonce"].s, now);
      }
      var nonceErrors := if nonceOk then [] else [NonceError];

      var ttlOk := signal["timestamp"].Str? && IsValidTtl(prims, signal["timestamp"].s, signal["ttl"], now);
      var ttlErrors := if ttlOk then [] else [TtlError];

      var replay := DetectReplayAttack(signal, now);
      var replayErrors := if replay then [ReplayError] else [];

      var copy := signal - {"signature"};
      var expected := signal["signature"];
      var signatureErrors: seq<string>;
      if Truthy(expected) {
        if expected.Str? && VerifySignature(prims, secretKey, copy, expected.s) {
          signatureErrors := [];
        } else {
          signatureErrors := [BadSignatureError];
        }
      } else {
        signatureErrors := [NoSignatureError];
      }
      errors := nonceErrors + ttlErrors + replayErrors + signatureErrors;
    }

    /** `validate_secure_karma_signal`: the missing-field check first (which
        returns at once, touching nothing), then the nonce, TTL, replay and
        signature checks, each adding its own error, then 'signal_validated'
        is logged. */
    method ValidateSecureKarmaSignal(signal: Message, now: real) returns (r: Validation)
      requires Valid()
      modifies this`nonceStore, this`replayCache, this`auditLog, this`lastAuditHash
      ensures Valid()
      ensures r == Validate(prims, secretKey, old(nonceStore), old(replayCache), signal, now)
      ensures nonceStore == NonceStoreAfterValidation(old(nonceStore), signal, now)
      ensures replayCache == ReplayCacheAfterValidation(prims, old(replayCache), signal, now)
      ensures Audit() == AuditAfterValidation(prims, old(Audit()), signal, r, now)
    {
      var missing := MissingRequiredFields(signal);
      if missing != [] {
        return Validation(false, missing);
      }
      var errors := RunChecks(signal, now);
      r := Validation(errors == [], errors);
      var _ := LogSecurityEvent("signal_validated", ValidatedDetails(signal, r), now);
    }

    /** `get_audit_trail(limit)`: the last `limit` entries in order (Python's
        `log[-limit:]`, so a zero limit yields the whole log). */
    function GetAuditTrail(limit: int := 100): (trail: seq<AuditEntry>)
      reads this
      ensures |trail| <= |auditLog| && trail == auditLog[|auditLog| - |trail|..]
      ensures limit >= 1 ==> |trail| == if limit < |auditLog| then limit else |auditLog|
      ensures limit == 0 ==> trail == auditLog
    {
      LastEntries(auditLog, limit)
    }

    /** `verify_audit_chain`: walk the links from the second entry on. */
    method VerifyAuditChain() returns (ok: bool)
      ensures ok == ChainVerifies(prims, auditLog)
      ensures |auditLog| <= 1 ==> ok
      ensures ok ==> forall i :: 1 <= i < |auditLog| ==> OwnHashVerifies(prims, auditLog[i])
    {
      if |auditLog| <= 1 {
        return true;
      }
      var i := 1;
      while i < |auditLog|
        invariant 1 <= i <= |auditLog|
        invariant forall j :: 1 <= j < i ==> LinkVerifies(prims, auditLog[j - 1], auditLog[j]) && OwnHashVerifies(prims, auditLog[j])
      {
        var current := auditLog[i];
        var previous := auditLog[i - 1];
        var expectedPrevious := Digest(prims, EntryJson(previous));
        if current.previousHash != Some(expectedPrevious) {
          return false;
        }
        if current.entryHash.Some? && current.entryHash.value != "" {
          if current.entryHash.value != Digest(prims, EntryJson(Unsealed(current))) {
            return false;
          }
        }
        i := i + 1;
      }
      return true;
    }

    /** `get_security_summary`. */
    method GetSecuritySummary() returns (s: SecuritySummary)
      ensures s.nonceCount == |nonceStore| && s.replayCacheSize == |replayCache|
      ensures s.auditLogSize == |auditLog| && s.lastAuditHash == lastAuditHash
      ensures s.chainIntegrity == ChainVerifies(prims, auditLog)
    {
      var integrity := VerifyAuditChain();
      s := SecuritySummary(|nonceStore|, |replayCache|, |auditLog|, integrity, lastAuditHash);
    }
  }

  /** Once a valid manager has logged any event, its chain verifies only
      if the digest confuses the first entry with that entry without
      `entry_hash`; when the digest tells the two apart, the chain verifies
      exactly while it holds a single entry. */
  lemma ManagerChainIntegrity(m: SecurityManager)
    requires m.Valid()
    ensures ChainVerifies(m.prims, m.auditLog) && |m.auditLog| >= 2 ==>
      Digest(m.prims, EntryJson(m.auditLog[0])) == Digest(m.prims, EntryJson(Unsealed(m.auditLog[0])))
    ensures SealDistinguishes(m.prims) ==> (ChainVerifies(m.prims, m.auditLog) <==> |m.auditLog| == 1)
  {
    LinkedChainVerifiesOnlyWhenTrivial(m.prims, m.auditLog, m.lastAuditHash);
  }
}

=== FILE: values.dfy ===
/**
 * JSON-like values as the KarmaChain utilities keep them in Python
 * dictionaries, together with the few pieces of Python semantics the
 * model needs: truthiness, `dict.get` with a default, and the tail slice
 * `s[-limit:]` used by the audit-trail readers.
 */
module Values {

  datatype Option<+T> = None | Some(value: T) {
    function GetOr(default: T): T {
      match this
      case Some(v) => v
      case None => default
    }
  }

  /** A value that may sit in one of the source's dictionaries. */
  datatype Value =
    | Null
    | Bool(b: bool)
    | Int(i: int)
    | Num(r: real)
    | Str(s: string)
    | List(items: seq<Value>)
    | Obj(fields: map<string, Value>)

  /** A dictionary with string keys: a message, a details record, a reply. */
  type Message = map<string, Value>

  /** Python truthiness of a value (`if v:`). */
  predicate Truthy(v: Value) {
    match v
    case Null => false
    case Bool(b) => b
    case Int(i) => i != 0
    case Num(r) => r != 0.0
    case Str(s) => s != ""
    case List(xs) => xs != []
    case Obj(m) => m != map[]
  }

  /** `d.get(key, default)`. */
  function GetOr(d: Message, key: string, default: Value): (v: Value)
    ensures key in d ==> v == d[key]
    ensures key !in d ==> v == default
  {
    if key in d then d[key] else default
  }

  /** `d.get(key)`: a missing key reads as None. */
  function Get(d: Message, key: string): Value {
    GetOr(d, key, Null)
  }

  /**
   * The Python slice `s[-limit:] if len(s) > limit else s`. Python reads
   * `s[-0:]` as `s[0:]`, and a negative limit as a start index.
   */
  function LastEntries<T>(s: seq<T>, limit: int): (r: seq<T>)
    ensures |r| <= |s| && r == s[|s| - |r|..]
    ensures limit >= 1 ==> |r| == if limit < |s| then limit else |s|
    ensures limit == 0 ==> r == s
    ensures limit < 0 ==> |r| == if -limit < |s| then |s| + limit else 0
  {
    if |s| > limit then
      if limit > 0 then s[|s| - limit..]
      else if -limit < |s| then s[-limit..]
      else []
    else s
  }

  /** A list of strings as a value. */
  function StrList(xs: seq<string>): (v: Value)
    ensures v.List? && |v.items| == |xs|
    ensures forall i :: 0 <= i < |xs| ==> v.items[i] == Str(xs[i])
  {
    List(seq(|xs|, i requires 0 <= i < |xs| => Str(xs[i])))
  }

  /** Decimal digits of a natural number, as Python's `str(n)` prints them. */
  function NatString(n: nat): (r: string)
    ensures |r| >= 1
    ensures forall i :: 0 <= i < |r| ==> '0' <= r[i] <= '9'
    decreases n
  {
    var d := [((n % 10) + 48) as char];
    if n < 10 then d else NatString(n / 10) + d
  }

  /** `str(n)` for any integer. */
  function IntString(n: int): string {
    if n < 0 then "-" + NatString(-n) else NatString(n)
  }
}
